=== FILE: README.md ===
# regen in Dafny

A model of `regen`, a Go library that builds regular-expression text from a tree
of values. You combine literals, sequences, alternations, groups, repetitions
and character classes with small builder methods. Each node's `Regexp()` then
writes the pattern string. This project models:

- the nodes;
- every builder and mutator;
- both renderers (`Regexp()` and the class-body writer `charSetRegexp()`);
- the `Flag` bit set with its letters `imsU`;
- the ready-made anchors.

It then proves what the rendered text means.

How the model is organised:

- **Text is bytes.** Go strings are byte strings, so pattern text is `seq<Byte>`.
  Every length test in the library (`len(subRe) == 1`, `len(name) > 1`) is a byte
  count in the model too.
- **Runes are written in UTF-8** (RFC 3629), as `strings.Builder.WriteRune` does.
  A value that is not a Unicode scalar value is written as U+FFFD.
- **Nodes are values.** `Node` is a datatype with five variants: literal, multi
  (sequence and alternation), group, repetition and class. `CharClass` has four:
  set, range, ASCII and Unicode. Go's `GroupedRegexp` and `RepeatedRegexp`
  interfaces are the subset types `GroupNode` and `RepeatNode`. Every mutator
  copies its receiver, so every mutator is a function.
- **Rendering is a recursive function** (`Regen.Render`, `Regen.ClassBody`). The
  Go renderers write step by step into a `strings.Builder`, so those writers are
  also modelled as methods, each proved equal to the function. The loops are
  `Text.JoinLoop`, `Sequences.WriteMulti`, `Regen.WriteMembers` and
  `Regen.WriteNested`. `Regen.WriteSetBody` and `Flags.WriteFlagString` are
  step-by-step builders without a loop of their own.
- **These renderings have readers**, and round-trip lemmas show that the text
  reads back as what the node asks for:
  - the quantifier text reads back as the repetition bounds and greediness;
  - a group's text reads back as its name, defined flags, capture mode and child
    text;
  - a class's escaped members read back as its runes;
  - an alternation cut at its `|`s gives back its choices;
  - flag letters read back as the defined flags.
- **Counts are Go `uint` on a 64-bit platform.** The count is passed through
  `int(...)` before `strconv.Itoa`, so values from 2^63 wrap to negative. The
  model writes that wrap out (`Regen.AsInt`).

## Model

| member | source | states |
|---|---|---|
| Text.JoinLoop | regen.go:288-297 | The builder loop writes every piece, with the separator after each piece but the last; the result is the join of the pieces |
| Text.JoinLength | regen.go:288-297 | n ≥ 1 pieces joined are as long as the pieces together plus n − 1 separators |
| Text.JoinSeparatorCount | regen.go:288-297 | Joining with a one-byte separator adds exactly n − 1 of that byte to those the pieces already hold |
| Text.JoinSplit | regen.go:288-297 | Joining two lists is joining each and putting one separator between them |
| Text.JoinEmptySeparator | regen.go:280-286 | With the empty separator a join is plain concatenation |
| Text.SplitJoin | regen.go:270-278 | Cutting a join at every separator byte gives back the pieces, when no piece holds that byte |
| Decimal.Digits | regen.go:199 | The decimal text of a count has at least one digit and no leading zero |
| Decimal.Itoa | regen.go:199 | `strconv.Itoa` writes a minus sign exactly for a negative number, and digits only otherwise |
| Decimal.ParseItoa | regen.go:199 | Reading back what `Itoa` writes for a non-negative number gives that number |
| Decimal.ParseDigits | regen.go:207 | Reading back the digits of a number gives that number |
| Utf8.Normalize | regen.go:378 | What is written for a rune is always a Unicode scalar value, and a valid rune is written as itself |
| Utf8.EncodeRune | regen.go:378 | A rune is written as one to four bytes; one byte, the rune itself, exactly for ASCII; two, three or four bytes as the written code point is below 0x800, below 0x10000 or above, so no encoding is overlong |
| Utf8.EncodeRuneHigh | regen.go:374-379 | Every byte of a multi-byte encoding is ≥ 0x80, so `\` and `^` appear only as themselves |
| Utf8.DecodeEncodeRune | regen.go:378 | Decoding an encoded rune, whatever follows it, gives back its code point and encoded length |
| Flags.FlagBits | constants.go:9-18 | The four flags are the distinct single bits 1, 2, 4, 8 and together make up `Defined` (15) |
| Flags.FlagString | constants.go:21-36 | `Flag.String` writes at most four letters |
| Flags.WriteFlagString | constants.go:21-36 | The four conditional writes produce `FlagString(f)`: the letters in canonical order, each at most once, one per set defined bit |
| Flags.FlagStringIgnoresUndefined | constants.go:21-36 | Bits above the low four are ignored, and no flags write the empty string |
| Flags.FlagStringLength | constants.go:21-36 | The length equals the number of defined bits set |
| Flags.FlagStringHas | constants.go:21-36 | Each letter appears exactly when its own bit is set |
| Flags.FlagStringUnion | constants.go:21-36 | The letters of the union of `a` and `b` are exactly the letters of `a` together with those of `b` |
| Flags.FlagStringCanonical | constants.go:21-36 | The letters are a subsequence of `imsU`: strictly increasing in that order |
| Flags.FlagStringLetters | constants.go:21-36 | No byte other than the four letters is ever written |
| Flags.ParseFlagString | constants.go:21-36 | Reading the letters back gives the defined part of the flags |
| Flags.FlagStringInjective | constants.go:21-36 | Two flag sets write the same letters exactly when their defined bits agree |
| Regen.Render | regen.go:85-531 | Each node's `Regexp()`: a group (85-118) is written between `(` and `)`; a repetition (169-221) always ends in `*`, `+`, `?` or `}`; a set, range or ASCII class (358-360, 422-424, 474-476) is written between `[` and `]`; a Unicode class (522-531) starts with `\` |
| Regen.GroupText | regen.go:85-118 | A group's text is at least its child's text plus `(` and `)`; it is exactly that only for an unnamed capturing group without flags; a named or non-capturing group continues `(?` |
| Regen.GroupTextChild | regen.go:85-118 | Every group's text ends with its child's text just before the closing `)` |
| Regen.FlagsText | regen.go:94-103 | Without unset flags the flag text is at most four letters; with unset flags it is never empty, even when only undefined bits are unset, and at most nine bytes |
| Regen.Operand | regen.go:169-191 | The repeated operand is its text or its text in parentheses, and is bare exactly for a group, a class, a one-byte text or a two-byte text starting with `\` |
| Regen.AsInt | regen.go:199 | `int(x)` lies in the signed 64-bit range, has the same 64 bits as `x` (equal modulo 2^64), and equals `x` below 2^63 |
| Regen.Quantifier | regen.go:192-219 | The quantifier starts with `*`, `+`, `?` or `{`, ends in `*`, `+`, `?` or `}`, and ends in `?` exactly when it is lazy or is the zero-or-one `?` |
| Regen.EscapeRune | regen.go:374-379 | An escaped rune takes one to four bytes |
| Regen.EscapeRunes | regen.go:386-388 | A set's escaped members take at least one and at most four bytes per rune |
| Regen.UnicodeText | regen.go:522-531 | A Unicode class's text starts with `\`, then `P` exactly when negated and `p` exactly when not |
| Regen.ClassBody | regen.go:381-548 | Each class's `charSetRegexp()`: a negated set (381-393) or range (438-447) starts with `^`, for every set, with runes or not; an ASCII class (490-496) starts with `[:`; a Unicode class (546-548) starts with `\` |
| Regen.ClassRender | regen.go:358-548 | A Unicode class writes its body as its text (546-548); any other class writes its body between `[` and `]` (358-360, 422-424, 474-476) |
| Regen.Raw | regen.go:317-331 | `Raw(s)` writes `s` unchanged, and the node is neither a group nor a class, so a repetition of it is put in parentheses by the text-length rules alone |
| Regen.Sequence | regen.go:280-297 | A sequence writes its children's texts one after another, with nothing between them, and is neither a group nor a class |
| Regen.OneOf | regen.go:270-278 | An alternation is a new unnamed, capturing group without flags around the bar-separated choices, and writes `(`, the choices joined by bars, then `)` |
| Regen.CharSet | regen.go:351-393 | A new set writes `[`, its escaped runes in order, then `]` |
| Regen.CharRange | regen.go:414-447 | A new range writes `[`, its escaped start, `-`, its escaped end, then `]` |
| Regen.AsciiCharClass | regen.go:466-496 | A new ASCII class writes `[[:name:]]` |
| Regen.UnicodeCharClass | regen.go:515-548 | A new Unicode class writes the same text as its body and as a pattern: `\p`, then the name |
| Regen.WriteMembers | regen.go:386-388 | The loop over a set's runes writes each rune escaped, in order |
| Regen.WriteNested | regen.go:389-391 | The loop over a set's nested classes writes each nested body, in order |
| Regen.WriteSetBody | regen.go:381-393 | A set's body is `^` when negated, then its escaped runes, then its nested bodies |
| Regen.BodiesAppend | regen.go:389-391 | The bodies of two lists of classes are the bodies of the first, then those of the second |
| Regen.Group | regen.go:120-122 | `Group()` returns a group unchanged; any other node becomes a new group holding it as its child, capturing, unnamed and without flags, written `(`text`)` |
| Regen.Repeat | regen.go:124-126 | `Repeat()` means zero or more times, greedily, and writes the operand followed by `*` |
| Regen.Optional | regen.go:128-130 | `Optional()` means zero or one time, greedily, and writes the operand followed by `?` |
| Regen.Capture | regen.go:132-136 | `Capture()` makes the group capturing and unnamed and keeps its child and flags |
| Regen.CaptureAs | regen.go:138-142 | `CaptureAs(name)` makes the group capturing under `name` and keeps its child and flags |
| Regen.NoCapture | regen.go:144-148 | `NoCapture()` makes the group non-capturing and unnamed and keeps its child and flags |
| Regen.SetFlags | regen.go:150-153 | `SetFlags` replaces the set flags and changes nothing else |
| Regen.UnsetFlags | regen.go:155-158 | `UnsetFlags` replaces the unset flags and changes nothing else |
| Regen.Min | regen.go:235-239 | `Min` changes only the lower bound; operand, upper bound and greediness are kept |
| Regen.Max | regen.go:241-245 | `Max` changes only the upper bound; operand, lower bound and greediness are kept |
| Regen.Exactly | regen.go:247-253 | `Exactly(n)` is `Min(n).Max(n)`: both bounds `n`, greediness kept |
| Regen.Greedy | regen.go:255-258 | `Greedy` makes the repetition greedy and keeps its bounds |
| Regen.Ungreedy | regen.go:260-263 | `Ungreedy` makes the repetition lazy and keeps its bounds |
| Regen.Negate | regen.go:403-406 | `Negate` flips the negation and changes nothing else |
| Regen.Append | regen.go:395-401 | `Append` gives a set with the receiver's negation. A set keeps its runes and writes its old body followed by the new bodies. Any other class writes `^` if negated, then its own body, then the new bodies |
| Regen.AppendWrappedBody | regen.go:449-454 | A range, ASCII or Unicode class appended to becomes the first nested class of a set without runes |
| Quantifiers.QuantifierRoundTrip | regen.go:192-219 | The quantifier reads back as exactly the node's bounds and greediness, for counts below 2^63 |
| Quantifiers.GreedyRoundTrip | regen.go:192-216 | For counts below 2^63, the greedy quantifier (`*`, `+`, `?`, `{n}`, `{n,}`, `{n,m}`) reads back as the bounds, and ends in `?` only when it is `?` itself |
| Quantifiers.UngreedySuffix | regen.go:217-219 | The lazy form is the greedy form plus exactly one `?` |
| Quantifiers.BracesExact | regen.go:205-208 | `{n}` reads back as exactly n |
| Quantifiers.BracesOpen | regen.go:197-200 | `{n,}` reads back as at least n, with no upper bound |
| Quantifiers.BracesRange | regen.go:209-214 | `{n,m}` reads back as from n to m |
| Quantifiers.SmallCount | regen.go:199 | Below 2^63 a count is written as its plain digits |
| Quantifiers.WrappedCount | regen.go:199 | From 2^63 on, a count is written as a minus sign and the digits of 2^64 minus the count |
| Quantifiers.HugeMinimum | regen.go:192-201 | `Min(2^64 − 1)` writes `{-1,}`, which does not read back as a quantifier |
| Quantifiers.ParenthesisElision | regen.go:169-191 | The operand is written bare exactly when it is a group or a class, or its text is one byte, or two bytes starting with `\`; otherwise it is in parentheses |
| Quantifiers.RenderedQuantifier | regen.go:169-221 | For counts below 2^63, a repetition's text is its operand followed by a quantifier that reads back as its bounds |
| Quantifiers.RenderIgnoresHasMin | regen.go:160-167 | `hasMin` never changes the text |
| Quantifiers.OptionalMeaning | regen.go:128-130 | `Optional()` writes a quantifier that reads back as zero-or-one, greedy |
| Quantifiers.ExactlyRender | regen.go:247-253 | `Exactly(n)` writes the operand, then `{`, Go's `strconv.Itoa(int(n))`, `}`, then `?` when lazy, for every `n`; below 2^63 that is the plain digits of `n` |
| Quantifiers.UngreedyRender | regen.go:255-263 | `Ungreedy()` writes the `Greedy()` text followed by one `?` |
| Groups.FlagsTextShape | regen.go:94-103 | The flag text is the set letters, then `-` and the unset letters when any flag is unset |
| Groups.FlagsTextEmpty | regen.go:95-113 | The flag text is empty exactly when no defined flag is set and no flag at all is unset |
| Groups.FlagsTextBytes | regen.go:94-103 | The flag text never holds `:`, `)` or `P` |
| Groups.ParseFlagsTextRoundTrip | regen.go:94-103 | The flag text reads back as the defined set flags and defined unset flags |
| Groups.ReadNameRoundTrip | regen.go:88-92 | `?P<name>` reads back as the name and what follows it |
| Groups.ReadModeRoundTrip | regen.go:105-113 | `?flags:`, `(?flags)` or nothing reads back as the capture mode and the defined flags |
| Groups.NoSecondName | regen.go:88-113 | What follows a group's name never looks like a second name |
| Groups.GroupRoundTrip | regen.go:85-118 | A group's text reads back as its name, defined flags, capture mode and child text |
| Groups.GroupDelimited | regen.go:85-118 | A group's text is delimited by `(` and `)`, and its child's text is the part just before the `)` |
| Groups.NoCaptureReadsBack | regen.go:144-148 | After `NoCapture()` the group reads back as non-capturing and unnamed, whatever its child |
| Groups.CaptureAsReadsBack | regen.go:138-142 | After `CaptureAs(name)` the group reads back as capturing under that name |
| Groups.SetFlagsLastWins | regen.go:150-153 | After two `SetFlags` calls only the second call's flags read back |
| Groups.UnsetFlagsLastWins | regen.go:155-158 | After two `UnsetFlags` calls only the second call's flags read back, and the set flags are untouched |
| Groups.MutatorsKeepConsistent | regen.go:120-158 | Any list of calls of `Group`, `Capture`, `CaptureAs`, `NoCapture`, `SetFlags` and `UnsetFlags`, applied one after another to a group that is not both named and non-capturing, never gives one that is |
| Groups.GroupChainsConsistent | regen.go:120-158 | Every group made by `Group()` from another node and then changed by any list of group mutator calls is never both named and non-capturing |
| Sequences.WriteMulti | regen.go:288-297 | The multi-part loop writes `Render(m)`; its length is the children's total plus n − 1 separators |
| Sequences.TextsAppend | regen.go:288-297 | The children's texts of two lists are the first list's texts followed by the second's, in order |
| Sequences.SequenceAppend | regen.go:280-297 | A sequence of two lists writes the first list's text, then the second's |
| Sequences.EmptyMulti | regen.go:270-297 | An empty sequence writes nothing; an empty alternation writes `()` |
| Sequences.OneOfSingle | regen.go:270-278 | One choice is written in a capturing group on its own |
| Sequences.OneOfBars | regen.go:270-297 | An alternation of n choices holds exactly n − 1 more bars than its choices do |
| Sequences.OneOfChoices | regen.go:270-297 | When no choice writes a bar, cutting the text inside the parentheses at each bar gives back every choice's text, in order |
| Classes.EscapeRunesAppend | regen.go:386-388 | Escaping two lists of runes is escaping each, one after the other |
| Classes.EscapeRuneStart | regen.go:374-379 | An escaped rune never starts with a bare `^`, and starts with `\` exactly for `\` and `^` |
| Classes.DecodeEscapeRunes | regen.go:374-388 | Escaped members read back as the runes' code points, in order: escaping loses nothing and adds nothing |
| Classes.SetReadsBack | regen.go:381-393 | A set without nested classes writes `^` when negated, then members that read back as its runes |
| Classes.RangeBody | regen.go:438-447 | A range's body is `^` when negated, then its endpoints escaped around `-` |
| Classes.RangeReadsBack | regen.go:438-447 | A range's endpoints, with the `-` between them, read back as its two code points |
| Classes.RangeCaret | regen.go:438-447 | A range's body starts with `^` exactly when it is negated |
| Classes.SetCaret | regen.go:381-393 | A set with at least one rune starts its body with `^` exactly when it is negated |
| Classes.NegateInvolution | regen.go:403-406 | Negating twice gives the class back |
| Classes.NegatedBody | regen.go:381-406 | A set's or a range's negated body is its plain body after one `^` |
| Classes.NegateBracketed | regen.go:358-360 | Negating a set or a range inserts exactly one `^` right after its `[` |
| Classes.NegateAscii | regen.go:490-496 | Negating an ASCII class inserts exactly one `^` right after `[[:` |
| Classes.NegateUnicode | regen.go:522-531 | Negating a Unicode class turns `\p` into `\P` and changes nothing else |
| Classes.UnicodeBraces | regen.go:527-530 | The name is in braces exactly when it is longer than one byte |
| Classes.AppendAppend | regen.go:395-401 | Appending twice is appending both lists at once |
| Classes.ClassOperand | regen.go:175-177 | A class is never put in parentheses when repeated |
| Anchors.AnchorTexts | constants.go:38-46 | The anchors write `^`, `$`, `\A`, `\z`, `\b`, `\B` and `.` |
| Anchors.AnchorsRepeatBare | constants.go:38-46 | Repeating an anchor, or making it optional, adds no parentheses |
| Examples.FlagExamples | regen_test.go:277-286 | All four flags write `imsU`; case-insensitive with match-newline writes `is` |
| Examples.AlternationExample | regen_test.go:16-20 | `OneOf(a, bc)` writes `(`, `a`, a bar, `bc`, `)` |
| Examples.SequenceExample | regen_test.go:31-35 | `Sequence(hello, world)` writes `helloworld` |
| Examples.SetExample | regen_test.go:36-40 | `CharSet('h', 'こ', 'é')` writes `[hこé]`, byte for byte in UTF-8 |
| Examples.NegatedSetExample | regen_test.go:41-45 | Negated, that set writes `[^hこé]` |
| Examples.EscapedSetExample | regen_test.go:46-50 | `CharSet('^', '\')` writes `[\^\\]` |
| Examples.RangeExample | regen_test.go:51-55 | `CharRange('h', 'こ')` writes `[h-こ]` |
| Examples.NegatedRangeExample | regen_test.go:56-60 | Negated, that range writes `[^h-こ]` |
| Examples.EscapedRangeExample | regen_test.go:61-65 | `CharRange('\', '^')` writes `[\\-\^]` |
| Examples.AsciiClassExample | regen_test.go:66-75 | `[[:alpha:]]`, and `[[:^alpha:]]` negated |
| Examples.UnicodeClassExample | regen_test.go:76-90 | `\p{Greek}`, `\P{Greek}` negated, and `\pZ` |
| Examples.GroupExample | regen_test.go:154-158 | `(hello)` |
| Examples.NoCaptureExample | regen_test.go:159-163 | `(?:hello)` |
| Examples.SetFlagsExample | regen_test.go:164-168 | `((?im)hello)` |
| Examples.UnsetFlagsExample | regen_test.go:169-173 | `((?-im)hello)` |
| Examples.SetAndUnsetFlagsExample | regen_test.go:174-178 | `((?i-m)hello)` |
| Examples.NoCaptureFlagsExample | regen_test.go:179-183 | `(?im:hello)` |
| Examples.NamedGroupExample | regen_test.go:184-188 | `(?P<test>hello)` |
| Examples.NamedFlagsExample | regen_test.go:189-193 | `(?P<test>(?i)hello)` |
| Examples.StarExample | regen_test.go:194-198 | `(hello)*` |
| Examples.PlusExample | regen_test.go:199-203 | `(hello)+` |
| Examples.AtLeastExample | regen_test.go:204-208 | `(hello){2,}` |
| Examples.AtMostExample | regen_test.go:209-213 | `(hello){0,10}` |
| Examples.BetweenExample | regen_test.go:214-218 | `(hello){1,10}` |
| Examples.ExactlyExample | regen_test.go:219-223 | `(hello){5}` |
| Examples.UngreedyExample | regen_test.go:224-228 | `(hello)*?` |
| Examples.ElisionExample | regen_test.go:229-238 | `[hey]*` and `(hello)*`: no parentheses added around a class or a group |
| Examples.ShortLiteralExample | regen_test.go:239-248 | `h*` and `\w*`: no parentheses around one byte or a two-byte escape |
| Examples.NamedRepeatExample | regen_test.go:249-253 | `(?P<test>[hey]+)` |
| Examples.OptionalExample | regen_test.go:254-258 | `[hey]?` |
| Examples.ByteLengthExamples | regen.go:178-183 | A one-rune literal of three bytes is put in parentheses when repeated |
| Examples.NameByteLengthExample | regen.go:527-530 | A one-rune Unicode class name of two bytes is put in braces |
| Examples.AppendNegatedRange | regen.go:449-454 | Appending to a negated range writes `^` twice: `[^^a-cx]` |
| Examples.AppendNegatedUnicode | regen.go:549-554 | Appending nothing to a negated Unicode class writes the negation twice, as `^` and `\P`: `[^\P{Greek}]` |

## Left out

- `String(s)` (regen.go:323-327) escapes through `regexp.QuoteMeta`, which is not
  part of this model. The worked cases use plain words, which `QuoteMeta` leaves
  unchanged, written as `Raw`.
- `Union` and the Perl classes `Digit`, `Whitespace` and `WordCharacter`
  (`perlCharClass`, constants.go:47-49) are not defined in the modelled files.
  They are not modelled, and neither are the test cases that use them.
- What a pattern matches, and whether `regexp.Compile` accepts it, belong to Go's
  regular-expression engine. They are not modelled. The readers in this project
  check only that the written text holds what the node asks for.
- Go slices can share a backing array. `append(c.charClasses, classes...)` at
  regen.go:398 can alias the receiver's list. The model uses immutable sequences,
  so it does not capture that aliasing.
- The `Example` function of the test file prints, and it uses `Union`. It is not
  modelled.
- `uint` is taken to be 64 bits wide, and `Flag` is `bv64`.
- Quantifiers.QuantifierRoundTrip: holds only for counts below 2^63. Above that,
  Go's `int(...)` wraps and the count is written negative (`WrappedCount`,
  `HugeMinimum`).
- Quantifiers.GreedyRoundTrip: holds only for counts below 2^63, for the same
  reason as `QuantifierRoundTrip`.
- Quantifiers.RenderedQuantifier: holds only for counts below 2^63, for the same
  reason as `QuantifierRoundTrip`.
- Groups.GroupRoundTrip: requires that the name holds no `>` (regen.go:88-92
  writes any name as given). It also requires that a plain capturing group's
  child text does not itself start with `?` or `(?`, since such a child cannot be
  told apart from a flag directive.
- Groups.CaptureAsReadsBack: the same two conditions as `GroupRoundTrip`.
- Groups.SetFlagsLastWins: the same two conditions as `GroupRoundTrip`.
- Groups.UnsetFlagsLastWins: the same two conditions as `GroupRoundTrip`.
- Classes.SetCaret: the "exactly when" covers only sets with at least one rune. A
  set without runes starts with whatever its first nested class writes, which may
  be a `^` of that class's own. The direction "negated, so `^` first" holds for
  every set and is part of the contract of `Regen.ClassBody`.
- Classes.SetReadsBack: covers only sets without nested classes. With nested
  classes, the text after the members is the nested bodies (`Regen.WriteSetBody`),
  which this project does not read back.
- The model is faithful to two behaviours of the source that look surprising:
  - unsetting only undefined bits still writes an empty `(?-)` directive
    (`Groups.FlagsTextEmpty`);
  - appending to a negated range, ASCII or Unicode class writes the negation
    twice: a second `^` for a range or an ASCII class, `\P` for a Unicode class
    (`Examples.AppendNegatedRange`, `Examples.AppendNegatedUnicode`).

=== FILE: anchors.dfy ===
/** The ready-made anchors and the any-character pattern: raw text, written as is. */
module Anchors {
  import opened Text
  import opened Regen

  const Dollar: Byte := '$' as int
  const Dot: Byte := '.' as int
  const UpperA: Byte := 'A' as int
  const LowerZ: Byte := 'z' as int
  const LowerB: Byte := 'b' as int
  const UpperB: Byte := 'B' as int

  const LineStart: Node := Raw([Caret])
  const LineEnd: Node := Raw([Dollar])
  const TextStart: Node := Raw([Backslash, UpperA])
  const TextEnd: Node := Raw([Backslash, LowerZ])
  const ASCIIBoundary: Node := Raw([Backslash, LowerB])
  const NotASCIIBoundary: Node := Raw([Backslash, UpperB])
  const Any: Node := Raw([Dot])

  /** All seven, in declaration order. */
  const All: seq<Node> := [LineStart, LineEnd, TextStart, TextEnd, ASCIIBoundary, NotASCIIBoundary, Any]

  /** Each writes exactly its one character or its backslash escape. */
  lemma AnchorTexts()
    ensures Render(LineStart) == [Caret] && Render(LineEnd) == [Dollar]
    ensures Render(TextStart) == [Backslash, UpperA] && Render(TextEnd) == [Backslash, LowerZ]
    ensures Render(ASCIIBoundary) == [Backslash, LowerB] && Render(NotASCIIBoundary) == [Backslash, UpperB]
    ensures Render(Any) == [Dot]
  {
  }

  /** Each is one byte, or two starting with `\`, so repeating or making it optional
      never adds parentheses. */
  lemma AnchorsRepeatBare(i: nat)
    requires i < |All|
    ensures Render(Repeat(All[i])) == Render(All[i]) + [Star]
    ensures Render(Optional(All[i])) == Render(All[i]) + [Question]
  {
    var a := All[i];
    assert |Render(a)| == 1 || (|Render(a)| == 2 && Render(a)[0] == Backslash);
  }
}

=== FILE: classes.dfy ===
/** Character classes: the members a class body writes, read back by a decoder of
    the escaped form, and what `Negate` and `Append` do to the text. */
module Classes {
  import opened Text
  import opened Utf8
  import opened Regen

  /** Reads escaped members back: `\` must be followed by `\` or `^`, which stands
      for itself; any other byte starts a UTF-8 encoded rune. */
  function DecodeMembers(b: Bytes): Option<seq<int>>
    decreases |b|
  {
    if b == [] then Some([])
    else if b[0] == Backslash then
      if |b| >= 2 && (b[1] == Backslash || b[1] == Caret) then
        match DecodeMembers(b[2..])
        case None => None
        case Some(rs) => Some([b[1] as int] + rs)
      else None
    else match DecodeRune(b)
      case None => None
      case Some(d) =>
        (match DecodeMembers(b[d.1..])
         case None => None
         case Some(rs) => Some([d.0] + rs))
  }

  /** The code points a list of runes stands for once written. */
  function Normalized(rs: seq<Rune>): (cs: seq<int>)
    ensures |cs| == |rs|
    ensures forall i | 0 <= i < |rs| :: cs[i] == Normalize(rs[i])
  {
    seq(|rs|, i requires 0 <= i < |rs| => Normalize(rs[i]))
  }

  lemma {:induction false} EscapeRunesAppend(xs: seq<Rune>, ys: seq<Rune>)
    ensures EscapeRunes(xs + ys) == EscapeRunes(xs) + EscapeRunes(ys)
    decreases |ys|
  {
    if ys == [] {
      assert xs + ys == xs;
    } else {
      var init := ys[..|ys| - 1];
      var last := ys[|ys| - 1];
      var zs := xs + ys;
      assert zs[..|zs| - 1] == xs + init && zs[|zs| - 1] == last;
      assert EscapeRunes(zs) == EscapeRunes(xs + init) + EscapeRune(last);
      assert EscapeRunes(ys) == EscapeRunes(init) + EscapeRune(last);
      EscapeRunesAppend(xs, init);
      Reassociate(EscapeRunes(xs), EscapeRunes(init), EscapeRune(last));
    }
  }

  lemma EscapeRunesCons(r: Rune, rs: seq<Rune>)
    ensures EscapeRunes([r] + rs) == EscapeRune(r) + EscapeRunes(rs)
  {
    EscapeRunesAppend([r], rs);
    assert [r][..0] == [];
  }

  /** An escaped member never starts with a bare `^`. */
  lemma EscapeRuneStart(r: Rune)
    ensures |EscapeRune(r)| >= 1
    ensures EscapeRune(r)[0] != Caret
    ensures EscapeRune(r)[0] == Backslash <==> r == Backslash || r == Caret
  {
    EncodeRuneHigh(r);
  }

  /** `\\` or `\^`, whatever follows it, reads back as the escaped rune. */
  lemma DecodeEscaped(r: Rune, rest: Bytes)
    requires r == Backslash || r == Caret
    ensures DecodeMembers(EscapeRune(r) + rest)
         == match DecodeMembers(rest) case None => None case Some(cs) => Some([Normalize(r)] + cs)
  {
    var b := EscapeRune(r) + rest;
    assert b[0] == Backslash && b[1] == r && b[2..] == rest;
  }

  /** Any other rune's encoding, whatever follows it, reads back as its code point. */
  lemma DecodePlain(r: Rune, rest: Bytes)
    requires r != Backslash && r != Caret
    ensures DecodeMembers(EscapeRune(r) + rest)
         == match DecodeMembers(rest) case None => None case Some(cs) => Some([Normalize(r)] + cs)
  {
    var e := EncodeRune(r);
    var b := e + rest;
    assert EscapeRune(r) == e;
    assert b != [] && b[0] != Backslash by {
      EncodeRuneHigh(r);
      assert b[0] == e[0];
    }
    assert DecodeRune(b) == Some((Normalize(r), |e|)) by {
      DecodeEncodeRune(r, rest);
    }
    assert b[|e|..] == rest;
  }

  /** One escaped member, whatever follows it, reads back as its code point. */
  lemma DecodeOne(r: Rune, rest: Bytes)
    ensures DecodeMembers(EscapeRune(r) + rest)
         == match DecodeMembers(rest) case None => None case Some(cs) => Some([Normalize(r)] + cs)
  {
    if r == Backslash || r == Caret {
      DecodeEscaped(r, rest);
    } else {
      DecodePlain(r, rest);
    }
  }

  /** The escaped members read back as the code points of the runes, in order:
      escaping loses nothing and invents nothing. */
  lemma {:induction false} DecodeEscapeRunes(rs: seq<Rune>)
    ensures DecodeMembers(EscapeRunes(rs)) == Some(Normalized(rs))
    decreases |rs|
  {
    if rs != [] {
      var head := rs[0];
      var tail := rs[1..];
      var rest := EscapeRunes(tail);
      assert rs == [head] + tail;
      EscapeRunesCons(head, tail);
      assert EscapeRunes(rs) == EscapeRune(head) + rest;
      DecodeEscapeRunes(tail);
      DecodeOne(head, rest);
      NormalizedCons(head, tail);
    }
  }

  lemma NormalizedCons(r: Rune, rs: seq<Rune>)
    ensures Normalized([r] + rs) == [Normalize(r)] + Normalized(rs)
  {
  }

  /** A set with no nested classes writes `^` when negated, then its members, which
      read back as the set's runes. */
  lemma SetReadsBack(c: CharClass)
    requires c.SetClass? && c.classes == []
    ensures ClassBody(c) == CaretIf(c.negated) + EscapeRunes(c.chars)
    ensures DecodeMembers(EscapeRunes(c.chars)) == Some(Normalized(c.chars))
  {
    SetBody(c);
    DecodeEscapeRunes(c.chars);
  }

  lemma RangeEscapes(start: Rune, end: Rune)
    ensures EscapeRunes([start, Dash, end]) == EscapeRune(start) + [Dash] + EscapeRune(end)
  {
    var rs: seq<Rune> := [start, Dash, end];
    var two: seq<Rune> := [start, Dash];
    var one: seq<Rune> := [start];
    assert rs[..2] == two && two[..1] == one && one[..0] == [];
    calc {
      EscapeRunes(rs);
      EscapeRunes(two) + EscapeRune(end);
      EscapeRunes(one) + EscapeRune(Dash) + EscapeRune(end);
      EscapeRune(start) + [Dash] + EscapeRune(end);
    }
  }

  /** A range writes `^` when negated, then its endpoints escaped around a `-`. */
  lemma RangeBody(c: CharClass)
    requires c.RangeClass?
    ensures ClassBody(c) == CaretIf(c.negated) + EscapeRunes([c.start, Dash, c.end])
  {
    RangeEscapes(c.start, c.end);
  }

  /** The endpoints around the `-` read back as the range's two code points. */
  lemma RangeReadsBack(start: Rune, end: Rune)
    ensures DecodeMembers(EscapeRunes([start, Dash, end])) == Some([Normalize(start), Dash as int, Normalize(end)])
  {
    var rs: seq<Rune> := [start, Dash, end];
    DecodeEscapeRunes(rs);
    assert Normalized(rs) == [Normalize(start), Dash as int, Normalize(end)];
  }

  /** A range's body starts with `^` exactly when it is negated. */
  lemma RangeCaret(c: CharClass)
    requires c.RangeClass?
    ensures |ClassBody(c)| >= 1 && (ClassBody(c)[0] == Caret <==> c.negated)
  {
    EscapeRuneStart(c.start);
  }

  /** A set with at least one member starts with `^` exactly when it is negated. A
      set with no members starts with whatever its first nested class writes. */
  lemma SetCaret(c: CharClass)
    requires c.SetClass? && c.chars != []
    ensures |ClassBody(c)| >= 1 && (ClassBody(c)[0] == Caret <==> c.negated)
  {
    SetBody(c);
    var rs := c.chars;
    assert rs == [rs[0]] + rs[1..];
    EscapeRunesCons(rs[0], rs[1..]);
    EscapeRuneStart(rs[0]);
  }

  /** Negating twice gives the class back. */
  lemma NegateInvolution(c: CharClass)
    ensures Negate(Negate(c)) == c
  {
  }

  /** A set's or a range's negated body is its plain body after one `^`. */
  lemma NegatedBody(c: CharClass)
    requires (c.SetClass? || c.RangeClass?) && !c.negated
    ensures ClassBody(Negate(c)) == [Caret] + ClassBody(c)
  {
    if c.SetClass? {
      NegatedSetBody(c);
    } else {
      NegatedRangeBody(c);
    }
  }

  lemma NegatedSetBody(c: CharClass)
    requires c.SetClass? && !c.negated
    ensures ClassBody(Negate(c)) == [Caret] + ClassBody(c)
  {
    var members := EscapeRunes(c.chars);
    var nested := Bodies(c.classes);
    var n := Negate(c);
    assert n == SetClass(c.chars, c.classes, true);
    SetBody(c);
    SetBody(n);
    assert ClassBody(c) == [] + members + nested;
    assert [] + members == members;
    assert ClassBody(n) == [Caret] + members + nested;
    Reassociate([Caret], members, nested);
  }

  lemma NegatedRangeBody(c: CharClass)
    requires c.RangeClass? && !c.negated
    ensures ClassBody(Negate(c)) == [Caret] + ClassBody(c)
  {
    var low := EscapeRune(c.start);
    var high := EscapeRune(c.end);
    assert ClassBody(c) == low + [Dash] + high;
    assert ClassBody(Negate(c)) == [Caret] + low + [Dash] + high;
    Reassociate([Caret] + low, [Dash], high);
    Reassociate([Caret], low, [Dash] + high);
    Reassociate(low, [Dash], high);
  }

  /** Negating a set or a range inserts one `^` right after the `[`. */
  lemma NegateBracketed(c: CharClass)
    requires (c.SetClass? || c.RangeClass?) && !c.negated
    ensures var t := ClassRender(c);
            |t| >= 1 && ClassRender(Negate(c)) == [LBracket, Caret] + t[1..]
  {
    var body := ClassBody(c);
    var rest := body + [RBracket];
    NegatedBody(c);
    assert ClassRender(c) == [LBracket] + body + [RBracket];
    assert ClassRender(Negate(c)) == [LBracket] + ([Caret] + body) + [RBracket];
    Reassociate([LBracket], body, [RBracket]);
    assert ClassRender(c)[1..] == rest;
    Reassociate([LBracket], [Caret] + body, [RBracket]);
    Reassociate([Caret], body, [RBracket]);
    Reassociate([LBracket], [Caret], rest);
    assert [LBracket] + [Caret] == [LBracket, Caret];
  }

  /** Negating an ASCII class inserts one `^` right after `[[:`. */
  lemma NegateAscii(c: CharClass)
    requires c.AsciiClass? && !c.negated
    ensures var t := ClassRender(c);
            |t| >= 3 && ClassRender(Negate(c)) == t[..3] + [Caret] + t[3..]
  {
    var open := [LBracket, LBracket, Colon];
    var close := [Colon, RBracket, RBracket];
    assert Negate(c) == AsciiClass(c.name, true);
    AsciiRender(c.name, false);
    AsciiRender(c.name, true);
    var t := ClassRender(c);
    assert t == open + [] + c.name + close;
    assert t[..3] == open;
    assert t[3..] == c.name + close;
  }

  lemma AsciiRender(name: Bytes, negated: bool)
    ensures ClassRender(AsciiClass(name, negated))
         == [LBracket, LBracket, Colon] + CaretIf(negated) + name + [Colon, RBracket, RBracket]
  {
    var body := [LBracket, Colon] + CaretIf(negated) + name + [Colon, RBracket];
    assert ClassBody(AsciiClass(name, negated)) == body;
  }

  /** Negating a Unicode class turns `\p` into `\P` and changes nothing else. */
  lemma NegateUnicode(c: CharClass)
    requires c.UnicodeClass? && !c.negated
    ensures var t := ClassRender(c);
            |t| >= 2 && t[1] == LowerP && ClassRender(Negate(c)) == t[1 := UpperP]
  {
  }

  /** A Unicode class puts its name in braces exactly when the name is longer than
      one byte (so a one-rune name of two or more bytes gets braces too). */
  lemma UnicodeBraces(name: Bytes, negated: bool)
    ensures var t := UnicodeText(name, negated);
            |name| > 1 <==> (|t| > 2 && t[2] == LBrace && t[|t| - 1] == RBrace && t[3..|t| - 1] == name)
  {
    var t := UnicodeText(name, negated);
    if |name| <= 1 {
      assert |t| <= 3;
    }
  }

  /** Appending twice is appending both lists at once. */
  lemma AppendAppend(c: CharClass, xs: seq<CharClass>, ys: seq<CharClass>)
    ensures Append(Append(c, xs), ys) == Append(c, xs + ys)
  {
    if c.SetClass? {
      assert c.classes + xs + ys == c.classes + (xs + ys);
    } else {
      assert [c] + xs + ys == [c] + (xs + ys);
    }
  }

  /** A class is never put in parentheses when repeated. */
  lemma ClassOperand(c: CharClass)
    ensures Operand(Class(c), Render(Class(c))) == ClassRender(c)
  {
  }
}

=== FILE: decimal.dfy ===
/** Decimal text of integers, as Go's `strconv.Itoa` writes it, and its inverse. */
module Decimal {
  import opened Text

  const Zero: Byte := '0' as int
  const Minus: Byte := '-' as int

  predicate IsDigit(b: Byte)
  {
    Zero <= b <= Zero + 9
  }

  predicate AllDigits(s: Bytes)
  {
    forall i | 0 <= i < |s| :: IsDigit(s[i])
  }

  /** Shortest decimal form of `n`: at least one digit, no leading zero. */
  function Digits(n: nat): (r: Bytes)
    ensures |r| >= 1
    ensures AllDigits(r)
    ensures |r| > 1 ==> r[0] != Zero
  {
    if n < 10 then [Zero + n] else Digits(n / 10) + [Zero + n % 10]
  }

  /** `strconv.Itoa`: a minus sign before the digits of a negative number. */
  function Itoa(n: int): (r: Bytes)
    ensures |r| >= 1
    ensures (r[0] == Minus) == (n < 0)
    ensures n >= 0 ==> AllDigits(r)
  {
    if n < 0 then [Minus] + Digits(-n) else Digits(n)
  }

  /** The number a string of digits denotes. */
  function ValueOf(s: Bytes): nat
    requires AllDigits(s)
  {
    if s == [] then 0 else ValueOf(s[..|s| - 1]) * 10 + (s[|s| - 1] - Zero)
  }

  /** Reads a non-empty run of digits; anything else is refused. */
  function ParseNat(s: Bytes): Option<nat>
  {
    if s != [] && AllDigits(s) then Some(ValueOf(s)) else None
  }

  lemma {:induction false} ValueOfDigits(n: nat)
    ensures ValueOf(Digits(n)) == n
  {
    if n >= 10 {
      var d := Digits(n);
      assert d[..|d| - 1] == Digits(n / 10);
      ValueOfDigits(n / 10);
    }
  }

  /** Reading back the digits of a number gives that number. */
  lemma ParseDigits(n: nat)
    ensures ParseNat(Digits(n)) == Some(n)
  {
    ValueOfDigits(n);
  }

  /** Reading back what `Itoa` writes for a non-negative number gives that number. */
  lemma ParseItoa(n: nat)
    ensures ParseNat(Itoa(n)) == Some(n)
  {
    ValueOfDigits(n);
  }
}

=== FILE: examples.dfy ===
/** Worked cases: the pattern texts the repository's own test table expects. A
    literal word stands in for `String(word)`, which writes plain letters unchanged. */
module Examples {
  import opened Text
  import opened Utf8
  import opened Flags
  import opened Regen
  import opened Classes

  const HelloText: Bytes := ['h' as int, 'e' as int, 'l' as int, 'l' as int, 'o' as int]
  const Hello: Node := Raw(HelloText)
  const WorldText: Bytes := ['w' as int, 'o' as int, 'r' as int, 'l' as int, 'd' as int]
  const TestName: Bytes := ['t' as int, 'e' as int, 's' as int, 't' as int]
  const Greek: Bytes := ['G' as int, 'r' as int, 'e' as int, 'e' as int, 'k' as int]

  /** `こ` (U+3053) and `é` (U+00E9) in UTF-8. */
  const Ko: Bytes := [0xE3, 0x81, 0x93]
  const EAcute: Bytes := [0xC3, 0xA9]

  lemma EscapeTwo(a: Rune, b: Rune)
    ensures EscapeRunes([a, b]) == EscapeRune(a) + EscapeRune(b)
  {
    var one: seq<Rune> := [b];
    var none: seq<Rune> := [];
    assert [a, b] == [a] + one;
    assert one == [b] + none;
    EscapeRunesCons(a, one);
    EscapeRunesCons(b, none);
  }

  lemma EscapeThree(a: Rune, b: Rune, c: Rune)
    ensures EscapeRunes([a, b, c]) == EscapeRune(a) + EscapeRune(b) + EscapeRune(c)
  {
    var two: seq<Rune> := [b, c];
    assert [a, b, c] == [a] + two;
    EscapeRunesCons(a, two);
    EscapeTwo(b, c);
    Reassociate(EscapeRune(a), EscapeRune(b), EscapeRune(c));
  }

  /** `[hey]`, the set the repetition cases use. */
  function Hey(): (c: CharClass)
    ensures ClassRender(c) == [LBracket, 'h' as int, 'e' as int, 'y' as int, RBracket]
  {
    EscapeThree('h' as int, 'e' as int, 'y' as int);
    CharSet(['h' as int, 'e' as int, 'y' as int])
  }

  lemma FlagExamples()
    ensures FlagString(FlagCaseInsensitive | FlagMultiLine | FlagMatchNewLine | FlagUngreedy)
         == [LetterI, LetterM, LetterS, LetterU]
    ensures FlagString(FlagCaseInsensitive | FlagMatchNewLine) == [LetterI, LetterS]
  {
  }

  lemma AlternationExample()
    ensures Render(OneOf([Raw(['a' as int]), Raw(['b' as int, 'c' as int])]))
         == [LParen, 'a' as int, Bar, 'b' as int, 'c' as int, RParen]
  {
    var a, bc := Raw(['a' as int]), Raw(['b' as int, 'c' as int]);
    var ts := Texts([a, bc]);
    assert ts == [['a' as int], ['b' as int, 'c' as int]];
    assert ts[..1] == [['a' as int]];
    assert Join(ts, [Bar]) == ['a' as int, Bar, 'b' as int, 'c' as int];
  }

  lemma SequenceExample()
    ensures Render(Sequence([Hello, Raw(WorldText)])) == HelloText + WorldText
  {
    var ts := Texts([Hello, Raw(WorldText)]);
    assert ts == [HelloText, WorldText];
    assert ts[..1] == [HelloText];
    var none: seq<Bytes> := [];
    assert ts[..1][..0] == none;
    assert Concat(ts[..1]) == HelloText;
  }

  lemma SetExample()
    ensures ClassRender(CharSet(['h' as int, 0x3053, 0xE9])) == [LBracket, 'h' as int] + Ko + EAcute + [RBracket]
  {
    EscapeThree('h' as int, 0x3053, 0xE9);
    assert EncodeRune(0x3053) == Ko;
    assert EncodeRune(0xE9) == EAcute;
  }

  lemma NegatedSetExample()
    ensures ClassRender(Negate(CharSet(['h' as int, 0x3053, 0xE9]))) == [LBracket, Caret, 'h' as int] + Ko + EAcute + [RBracket]
  {
    var tail := ['h' as int] + Ko + EAcute + [RBracket];
    SetExample();
    assert [LBracket, 'h' as int] + Ko + EAcute + [RBracket] == [LBracket] + tail;
    NegatedFrom(CharSet(['h' as int, 0x3053, 0xE9]), tail);
    assert [LBracket, Caret] + tail == [LBracket, Caret, 'h' as int] + Ko + EAcute + [RBracket];
  }

  /** A plain set or range written `[` then `tail` is written `[^` then `tail` once
      negated. */
  lemma NegatedFrom(c: CharClass, tail: Bytes)
    requires (c.SetClass? || c.RangeClass?) && !c.negated
    requires ClassRender(c) == [LBracket] + tail
    ensures ClassRender(Negate(c)) == [LBracket, Caret] + tail
  {
    NegateBracketed(c);
    assert ClassRender(c)[1..] == tail;
  }

  lemma EscapedSetExample()
    ensures ClassRender(CharSet([Caret, Backslash])) == [LBracket, Backslash, Caret, Backslash, Backslash, RBracket]
  {
    EscapeTwo(Caret, Backslash);
  }

  lemma RangeExample()
    ensures ClassRender(CharRange('h' as int, 0x3053)) == [LBracket, 'h' as int, Dash] + Ko + [RBracket]
  {
    assert EncodeRune(0x3053) == Ko;
  }

  lemma NegatedRangeExample()
    ensures ClassRender(Negate(CharRange('h' as int, 0x3053))) == [LBracket, Caret, 'h' as int, Dash] + Ko + [RBracket]
  {
    var tail := ['h' as int, Dash] + Ko + [RBracket];
    RangeExample();
    assert [LBracket, 'h' as int, Dash] + Ko + [RBracket] == [LBracket] + tail;
    NegatedFrom(CharRange('h' as int, 0x3053), tail);
    assert [LBracket, Caret] + tail == [LBracket, Caret, 'h' as int, Dash] + Ko + [RBracket];
  }

  lemma EscapedRangeExample()
    ensures ClassRender(CharRange(Backslash, Caret)) == [LBracket, Backslash, Backslash, Dash, Backslash, Caret, RBracket]
  {
  }

  lemma AsciiClassExample()
    ensures var alpha := ['a' as int, 'l' as int, 'p' as int, 'h' as int, 'a' as int];
            && ClassRender(AsciiCharClass(alpha)) == [LBracket, LBracket, Colon] + alpha + [Colon, RBracket, RBracket]
            && ClassRender(Negate(AsciiCharClass(alpha))) == [LBracket, LBracket, Colon, Caret] + alpha + [Colon, RBracket, RBracket]
  {
  }

  lemma UnicodeClassExample()
    ensures ClassRender(UnicodeCharClass(Greek)) == [Backslash, LowerP, LBrace] + Greek + [RBrace]
    ensures ClassRender(Negate(UnicodeCharClass(Greek))) == [Backslash, UpperP, LBrace] + Greek + [RBrace]
    ensures ClassRender(UnicodeCharClass(['Z' as int])) == [Backslash, LowerP, 'Z' as int]
  {
    assert Negate(UnicodeCharClass(Greek)) == UnicodeClass(Greek, true);
    assert UnicodeText(['Z' as int], false) == [Backslash, LowerP] + ['Z' as int];
  }

  lemma GroupExample()
    ensures Render(Group(Hello)) == [LParen] + HelloText + [RParen]
  {
  }

  lemma NoCaptureExample()
    ensures Render(NoCapture(Group(Hello))) == [LParen, Question, Colon] + HelloText + [RParen]
  {
  }

  lemma NamedGroupExample()
    ensures Render(CaptureAs(Group(Hello), TestName)) == [LParen, Question, UpperP, LAngle] + TestName + [RAngle] + HelloText + [RParen]
  {
  }

  lemma SetFlagsExample()
    ensures Render(SetFlags(Group(Hello), FlagCaseInsensitive | FlagMultiLine))
         == [LParen, LParen, Question, LetterI, LetterM, RParen] + HelloText + [RParen]
  {
    var g := SetFlags(Group(Hello), FlagCaseInsensitive | FlagMultiLine);
    assert g == Grouped(Hello, [], 3, 0, false);
    assert FlagString(3) == [LetterI, LetterM];
    assert FlagsText(3, 0) == [LetterI, LetterM];
  }

  lemma UnsetFlagsExample()
    ensures Render(UnsetFlags(Group(Hello), FlagCaseInsensitive | FlagMultiLine))
         == [LParen, LParen, Question, Dash, LetterI, LetterM, RParen] + HelloText + [RParen]
  {
    var g := UnsetFlags(Group(Hello), FlagCaseInsensitive | FlagMultiLine);
    assert g == Grouped(Hello, [], 0, 3, false);
    assert FlagString(3) == [LetterI, LetterM];
    assert FlagsText(0, 3) == [Dash, LetterI, LetterM];
  }

  lemma SetAndUnsetFlagsExample()
    ensures Render(UnsetFlags(SetFlags(Group(Hello), FlagCaseInsensitive), FlagMultiLine))
         == [LParen, LParen, Question, LetterI, Dash, LetterM, RParen] + HelloText + [RParen]
  {
    var g := UnsetFlags(SetFlags(Group(Hello), FlagCaseInsensitive), FlagMultiLine);
    assert g == Grouped(Hello, [], 1, 2, false);
    assert FlagString(1) == [LetterI] && FlagString(2) == [LetterM];
    assert FlagsText(1, 2) == [LetterI, Dash, LetterM];
  }

  lemma NoCaptureFlagsExample()
    ensures Render(SetFlags(NoCapture(Group(Hello)), FlagCaseInsensitive | FlagMultiLine))
         == [LParen, Question, LetterI, LetterM, Colon] + HelloText + [RParen]
  {
    var g := SetFlags(NoCapture(Group(Hello)), FlagCaseInsensitive | FlagMultiLine);
    assert g == Grouped(Hello, [], 3, 0, true);
    assert FlagString(3) == [LetterI, LetterM];
    assert FlagsText(3, 0) == [LetterI, LetterM];
  }

  lemma NamedFlagsExample()
    ensures Render(SetFlags(CaptureAs(Group(Hello), TestName), FlagCaseInsensitive))
         == [LParen, Question, UpperP, LAngle] + TestName + [RAngle, LParen, Question, LetterI, RParen] + HelloText + [RParen]
  {
    var g := SetFlags(CaptureAs(Group(Hello), TestName), FlagCaseInsensitive);
    assert g == Grouped(Hello, TestName, 1, 0, false);
    assert FlagString(1) == [LetterI];
    assert FlagsText(1, 0) == [LetterI];
  }

  lemma StarExample()
    ensures Render(Repeat(Hello)) == [LParen] + HelloText + [RParen, Star]
  {
  }

  lemma PlusExample()
    ensures Render(Min(Repeat(Hello), 1)) == [LParen] + HelloText + [RParen, Plus]
  {
  }

  lemma AtLeastExample()
    ensures Render(Min(Repeat(Hello), 2)) == [LParen] + HelloText + [RParen, LBrace, '2' as int, Comma, RBrace]
  {
  }

  lemma AtMostExample()
    ensures Render(Max(Repeat(Hello), 10)) == [LParen] + HelloText + [RParen, LBrace, '0' as int, Comma, '1' as int, '0' as int, RBrace]
  {
  }

  lemma BetweenExample()
    ensures Render(Max(Min(Repeat(Hello), 1), 10)) == [LParen] + HelloText + [RParen, LBrace, '1' as int, Comma, '1' as int, '0' as int, RBrace]
  {
  }

  lemma ExactlyExample()
    ensures Render(Exactly(Repeat(Hello), 5)) == [LParen] + HelloText + [RParen, LBrace, '5' as int, RBrace]
  {
  }

  lemma UngreedyExample()
    ensures Render(Ungreedy(Repeat(Hello))) == [LParen] + HelloText + [RParen, Star, Question]
  {
  }

  /** No parentheses around a class or a group when repeated. */
  lemma ElisionExample()
    ensures Render(Repeat(Class(Hey()))) == ClassRender(Hey()) + [Star]
    ensures Render(Repeat(Group(Hello))) == [LParen] + HelloText + [RParen, Star]
  {
    var cls := ClassRender(Hey());
    assert Operand(Class(Hey()), cls) == cls;
    var grp := [LParen] + HelloText + [RParen];
    assert Render(Group(Hello)) == grp;
    assert Operand(Group(Hello), grp) == grp;
    Reassociate([LParen] + HelloText, [RParen], [Star]);
  }

  /** None around one byte, nor around a two-byte escape such as `\w`. */
  lemma ShortLiteralExample()
    ensures Render(Repeat(Raw(['h' as int]))) == ['h' as int, Star]
    ensures Render(Repeat(Raw([Backslash, 'w' as int]))) == [Backslash, 'w' as int, Star]
  {
  }

  lemma NamedRepeatExample()
    ensures Render(CaptureAs(Group(Min(Repeat(Class(Hey())), 1)), TestName))
         == [LParen, Question, UpperP, LAngle] + TestName + [RAngle] + ClassRender(Hey()) + [Plus, RParen]
  {
    var rep := Min(Repeat(Class(Hey())), 1);
    var head := [LParen, Question, UpperP, LAngle] + TestName + [RAngle];
    var cls := ClassRender(Hey());
    RepeatHey();
    NamedGroup(rep);
    assert Render(CaptureAs(Group(rep), TestName)) == head + (cls + [Plus]) + [RParen];
    Reassociate(head, cls + [Plus], [RParen]);
    Reassociate(cls, [Plus], [RParen]);
    Reassociate(head, cls, [Plus, RParen]);
  }

  /** Any node that is not a group, captured under the test name. */
  lemma NamedGroup(n: Node)
    requires !n.Grouped?
    ensures Render(CaptureAs(Group(n), TestName))
         == [LParen, Question, UpperP, LAngle] + TestName + [RAngle] + Render(n) + [RParen]
  {
    var t := Render(n);
    var name := [Question, UpperP, LAngle] + TestName + [RAngle];
    var g := CaptureAs(Group(n), TestName);
    assert g == Grouped(n, TestName, 0, 0, false);
    assert FlagsText(0, 0) == [];
    assert Render(g) == GroupText(TestName, 0, 0, false, t);
    assert GroupText(TestName, 0, 0, false, t) == [LParen] + name + [] + t + [RParen];
    assert [LParen] + name + [] == [LParen] + name;
    Reassociate([LParen], [Question, UpperP, LAngle] + TestName, [RAngle]);
    Reassociate([LParen], [Question, UpperP, LAngle], TestName);
    assert [LParen] + [Question, UpperP, LAngle] == [LParen, Question, UpperP, LAngle];
  }

  lemma RepeatHey()
    ensures Render(Min(Repeat(Class(Hey())), 1)) == ClassRender(Hey()) + [Plus]
  {
    var rep := Min(Repeat(Class(Hey())), 1);
    assert rep == Repeated(Class(Hey()), 1, true, 0, false, false);
  }

  lemma OptionalExample()
    ensures Render(Optional(Class(Hey()))) == ClassRender(Hey()) + [Question]
  {
  }

  /** Lengths are counted in bytes: a one-rune literal of three bytes is put in
      parentheses when repeated. */
  lemma ByteLengthExamples()
    ensures Render(Repeat(Raw(Ko))) == [LParen] + Ko + [RParen, Star]
  {
  }

  /** Lengths are counted in bytes: a one-rune Unicode class name of two bytes is
      put in braces. */
  lemma NameByteLengthExample()
    ensures ClassRender(UnicodeCharClass(EAcute)) == [Backslash, LowerP, LBrace] + EAcute + [RBrace]
  {
  }

  /** Appending to a negated range keeps the range's own `^` inside the new set, so
      the negation is written twice. */
  lemma AppendNegatedRange()
    ensures ClassRender(Append(Negate(CharRange('a' as int, 'c' as int)), [CharSet(['x' as int])]))
         == [LBracket, Caret, Caret, 'a' as int, Dash, 'c' as int, 'x' as int, RBracket]
  {
    var r := Negate(CharRange('a' as int, 'c' as int));
    NegatedRangeAC();
    SetX();
    AppendOne(r, CharSet(['x' as int]));
  }

  lemma NegatedRangeAC()
    ensures var r := Negate(CharRange('a' as int, 'c' as int));
            !r.SetClass? && r.negated && ClassBody(r) == [Caret, 'a' as int, Dash, 'c' as int]
  {
    var r := Negate(CharRange('a' as int, 'c' as int));
    assert r == RangeClass('a' as int, 'c' as int, true);
  }

  lemma SetX()
    ensures ClassBody(CharSet(['x' as int])) == ['x' as int]
  {
    var none: seq<Rune> := [];
    assert ['x' as int] == ['x' as int] + none;
    EscapeRunesCons('x' as int, none);
  }

  /** Appending to a negated Unicode class writes the negation twice too: the new
      set's `^`, then the class's own `\P`. */
  lemma AppendNegatedUnicode()
    ensures ClassRender(Append(Negate(UnicodeCharClass(Greek)), []))
         == [LBracket, Caret, Backslash, UpperP, LBrace] + Greek + [RBrace, RBracket]
  {
    var u := Negate(UnicodeCharClass(Greek));
    NegatedGreek();
    AppendNothing(u);
  }

  lemma NegatedGreek()
    ensures Negate(UnicodeCharClass(Greek)).negated
    ensures ClassBody(Negate(UnicodeCharClass(Greek))) == [Backslash, UpperP, LBrace] + Greek + [RBrace]
  {
    assert Negate(UnicodeCharClass(Greek)) == UnicodeClass(Greek, true);
  }

  /** A class that is not a set, appended nothing, is written in a new set. */
  lemma AppendNothing(c: CharClass)
    requires !c.SetClass?
    ensures ClassRender(Append(c, [])) == [LBracket] + CaretIf(c.negated) + ClassBody(c) + [RBracket]
  {
    var none: seq<CharClass> := [];
    var r := Append(c, none);
    var x := CaretIf(c.negated);
    var y := ClassBody(c);
    assert Bodies(none) == [];
    assert ClassBody(r) == x + y + [];
    assert x + y + [] == x + y;
    assert ClassRender(r) == [LBracket] + (x + y) + [RBracket];
    Reassociate([LBracket], x, y);
  }

  /** A class that is not a set, appended one class, is written in a new set. */
  lemma AppendOne(c: CharClass, x: CharClass)
    requires !c.SetClass?
    ensures ClassRender(Append(c, [x])) == [LBracket] + CaretIf(c.negated) + ClassBody(c) + ClassBody(x) + [RBracket]
  {
    var r := Append(c, [x]);
    var p := CaretIf(c.negated);
    var y := ClassBody(c);
    var z := ClassBody(x);
    BodiesSingle(x);
    assert ClassBody(r) == p + y + z;
    assert ClassRender(r) == [LBracket] + (p + y + z) + [RBracket];
    Reassociate([LBracket], p + y, z);
    Reassociate([LBracket], p, y);
  }
}

=== FILE: flags.dfy ===
/** Group flags: a bit set over Go's `uint`, and its canonical letters `imsU`. */
module Flags {
  import opened Text

  type Flag = bv64

  const FlagCaseInsensitive: Flag := 1
  const FlagMultiLine: Flag := 2
  const FlagMatchNewLine: Flag := 4
  const FlagUngreedy: Flag := 8

  /** The mask of the four defined flags. */
  const Defined: Flag := 15

  const LetterI: Byte := 'i' as int
  const LetterM: Byte := 'm' as int
  const LetterS: Byte := 's' as int
  const LetterU: Byte := 'U' as int

  /** Position of a flag letter in the canonical order i, m, s, U. */
  function Rank(b: Byte): int
  {
    if b == LetterI then 0
    else if b == LetterM then 1
    else if b == LetterS then 2
    else if b == LetterU then 3
    else -1
  }

  /** A string of flag letters in canonical order, each at most once. */
  predicate Canonical(s: Bytes)
  {
    && (forall i | 0 <= i < |s| :: 0 <= Rank(s[i]))
    && (forall i, j | 0 <= i < j < |s| :: Rank(s[i]) < Rank(s[j]))
  }

  /** `Flag.String`: one letter per defined flag that is set, in canonical order. */
  function FlagString(f: Flag): (s: Bytes)
    ensures |s| <= 4
  {
    (if f & FlagCaseInsensitive != 0 then [LetterI] else [])
    + (if f & FlagMultiLine != 0 then [LetterM] else [])
    + (if f & FlagMatchNewLine != 0 then [LetterS] else [])
    + (if f & FlagUngreedy != 0 then [LetterU] else [])
  }

  /** `Flag.String` as the builder writes it: one conditional letter per flag. */
  method WriteFlagString(f: Flag) returns (out: Bytes)
    ensures out == FlagString(f)
    ensures Canonical(out) && |out| == BitCount(f, 4)
  {
    FlagStringCanonical(f);
    out := [];
    if f & FlagCaseInsensitive != 0 {
      out := out + [LetterI];
    }
    if f & FlagMultiLine != 0 {
      out := out + [LetterM];
    }
    if f & FlagMatchNewLine != 0 {
      out := out + [LetterS];
    }
    if f & FlagUngreedy != 0 {
      out := out + [LetterU];
    }
    FlagStringLength(f);
  }

  /** Number of set bits among the lowest `k`. */
  function BitCount(f: Flag, k: nat): nat
    requires k <= 64
  {
    if k == 0 then 0 else BitCount(f, k - 1) + (if f & (1 << (k - 1)) != 0 then 1 else 0)
  }

  /** Reads canonical flag letters back into a flag set. */
  function ParseFlags(s: Bytes): Option<Flag>
  {
    var (i, s1) := if |s| > 0 && s[0] == LetterI then (FlagCaseInsensitive, s[1..]) else (0, s);
    var (m, s2) := if |s1| > 0 && s1[0] == LetterM then (FlagMultiLine, s1[1..]) else (0, s1);
    var (t, s3) := if |s2| > 0 && s2[0] == LetterS then (FlagMatchNewLine, s2[1..]) else (0, s2);
    var (u, s4) := if |s3| > 0 && s3[0] == LetterU then (FlagUngreedy, s3[1..]) else (0, s3);
    if s4 == [] then Some(i | m | t | u) else None
  }

  /** The four flags are distinct single bits, all inside `Defined`. */
  lemma FlagBits()
    ensures FlagCaseInsensitive == 1 << 0 && FlagMultiLine == 1 << 1
    ensures FlagMatchNewLine == 1 << 2 && FlagUngreedy == 1 << 3
    ensures FlagCaseInsensitive | FlagMultiLine | FlagMatchNewLine | FlagUngreedy == Defined
  {
  }

  /** Only the four defined bits are written; any others are ignored. */
  lemma FlagStringIgnoresUndefined(f: Flag)
    ensures FlagString(f) == FlagString(f & Defined)
    ensures FlagString(0) == []
  {
  }

  /** One letter per set defined bit. */
  lemma FlagStringLength(f: Flag)
    ensures |FlagString(f)| == BitCount(f, 4)
  {
    assert BitCount(f, 1) == if f & FlagCaseInsensitive != 0 then 1 else 0;
    assert BitCount(f, 2) == BitCount(f, 1) + if f & FlagMultiLine != 0 then 1 else 0;
    assert BitCount(f, 3) == BitCount(f, 2) + if f & FlagMatchNewLine != 0 then 1 else 0;
  }

  /** A letter is written exactly when its own bit is set. */
  lemma FlagStringHas(f: Flag, x: Byte)
    ensures x in FlagString(f) <==>
      || (x == LetterI && f & FlagCaseInsensitive != 0)
      || (x == LetterM && f & FlagMultiLine != 0)
      || (x == LetterS && f & FlagMatchNewLine != 0)
      || (x == LetterU && f & FlagUngreedy != 0)
  {
    var p0 := if f & FlagCaseInsensitive != 0 then [LetterI] else [];
    var p1 := if f & FlagMultiLine != 0 then [LetterM] else [];
    var p2 := if f & FlagMatchNewLine != 0 then [LetterS] else [];
    var p3 := if f & FlagUngreedy != 0 then [LetterU] else [];
    assert FlagString(f) == p0 + p1 + p2 + p3;
    assert x in p0 + p1 + p2 + p3 <==> x in p0 || x in p1 || x in p2 || x in p3;
  }

  /** The letters of a union are the letters of either side. */
  lemma FlagStringUnion(a: Flag, b: Flag, x: Byte)
    ensures x in FlagString(a | b) <==> x in FlagString(a) || x in FlagString(b)
  {
    FlagStringHas(a, x);
    FlagStringHas(b, x);
    FlagStringHas(a | b, x);
    assert (a | b) & FlagCaseInsensitive != 0 <==> a & FlagCaseInsensitive != 0 || b & FlagCaseInsensitive != 0;
    assert (a | b) & FlagMultiLine != 0 <==> a & FlagMultiLine != 0 || b & FlagMultiLine != 0;
    assert (a | b) & FlagMatchNewLine != 0 <==> a & FlagMatchNewLine != 0 || b & FlagMatchNewLine != 0;
    assert (a | b) & FlagUngreedy != 0 <==> a & FlagUngreedy != 0 || b & FlagUngreedy != 0;
  }

  /** Reading the letters back gives the defined part of the flag set. */
  lemma ParseFlagString(f: Flag)
    ensures ParseFlags(FlagString(f)) == Some(f & Defined)
  {
    var s := FlagString(f);
    var b0, b1, b2, b3 := f & FlagCaseInsensitive, f & FlagMultiLine, f & FlagMatchNewLine, f & FlagUngreedy;
    assert f & Defined == b0 | b1 | b2 | b3;
  }

  /** No byte outside the four letters is ever written. */
  lemma FlagStringLetters(f: Flag, x: Byte)
    requires Rank(x) < 0
    ensures x !in FlagString(f)
  {
    FlagStringHas(f, x);
  }

  /** Canonical, and every letter ranked below `k`. */
  predicate RanksBelow(s: Bytes, k: int)
  {
    Canonical(s) && forall i | 0 <= i < |s| :: Rank(s[i]) < k
  }

  /** Appending nothing, or one letter of rank `k`, to letters ranked below `k`. */
  lemma AppendLetter(s: Bytes, k: int, t: Bytes)
    requires 0 <= k && RanksBelow(s, k)
    requires t == [] || (|t| == 1 && Rank(t[0]) == k)
    ensures RanksBelow(s + t, k + 1)
  {
    var u := s + t;
    forall i | 0 <= i < |u|
      ensures 0 <= Rank(u[i]) < k + 1
    {
      if i < |s| {
        assert u[i] == s[i];
      }
    }
    forall i, j | 0 <= i < j < |u|
      ensures Rank(u[i]) < Rank(u[j])
    {
      if j < |s| {
        assert u[i] == s[i] && u[j] == s[j];
      } else {
        assert u[i] == s[i] && u[j] == t[0];
      }
    }
  }

  /** The letters come out in the canonical order, each at most once. */
  lemma FlagStringCanonical(f: Flag)
    ensures Canonical(FlagString(f))
  {
    var p0 := if f & FlagCaseInsensitive != 0 then [LetterI] else [];
    var p1 := if f & FlagMultiLine != 0 then [LetterM] else [];
    var p2 := if f & FlagMatchNewLine != 0 then [LetterS] else [];
    var p3 := if f & FlagUngreedy != 0 then [LetterU] else [];
    var s1 := p0 + p1;
    var s2 := s1 + p2;
    var s3 := s2 + p3;
    assert FlagString(f) == s3;
    assert RanksBelow(p0, 1);
    AppendLetter(p0, 1, p1);
    AppendLetter(s1, 2, p2);
    AppendLetter(s2, 3, p3);
  }

  /** Two flag sets are written alike exactly when their defined bits agree. */
  lemma FlagStringInjective(a: Flag, b: Flag)
    ensures FlagString(a) == FlagString(b) <==> a & Defined == b & Defined
  {
    ParseFlagString(a);
    ParseFlagString(b);
    FlagStringIgnoresUndefined(a);
    FlagStringIgnoresUndefined(b);
  }
}

=== FILE: groups.dfy ===
/** Groups: the text a group writes, read back into its name, its flags, whether it
    captures, and its child's text; and what the group mutators do to that text. */
module Groups {
  import opened Text
  import opened Flags
  import opened Regen

  /** The parts of a group that its text shows. */
  datatype GroupParts = GroupParts(name: Bytes, setFlags: Flag, unsetFlags: Flag, noCapture: bool, inner: Bytes)

  /** Whether a text would be taken for a group's flag directive: it starts with `?`
      or with `(?`. */
  predicate LooksLikeDirective(t: Bytes)
  {
    (|t| >= 1 && t[0] == Question) || (|t| >= 2 && t[0] == LParen && t[1] == Question)
  }

  /** Reads the flag letters of a group: set letters, then optionally `-` and unset
      letters. */
  function ParseFlagsText(t: Bytes): Option<(Flag, Flag)>
  {
    match Cut(t, Dash)
    case None =>
      (match ParseFlags(t)
       case Some(s) => Some((s, 0))
       case None => None)
    case Some((setText, unsetText)) =>
      (match (ParseFlags(setText), ParseFlags(unsetText))
       case (Some(s), Some(u)) => Some((s, u))
       case _ => None)
  }

  /** Reads `?P<name>` at the front, if it is there. */
  function ReadName(body: Bytes): Option<(Bytes, Bytes)>
  {
    if |body| >= 3 && body[0] == Question && body[1] == UpperP && body[2] == LAngle then
      match FindByte(body[3..], RAngle)
      case None => None
      case Some(k) => Some((body[3..][..k], body[3..][k + 1..]))
    else Some(([], body))
  }

  /** Reads the capture mode and flags after the name; the rest is the child's text. */
  function ReadMode(name: Bytes, rest: Bytes): Option<GroupParts>
  {
    if |rest| >= 1 && rest[0] == Question then
      match FindByte(rest[1..], Colon)
      case None => None
      case Some(k) =>
        (match ParseFlagsText(rest[1..][..k])
         case None => None
         case Some(f) => Some(GroupParts(name, f.0, f.1, true, rest[1..][k + 1..])))
    else if |rest| >= 2 && rest[0] == LParen && rest[1] == Question then
      match FindByte(rest[2..], RParen)
      case None => None
      case Some(k) =>
        (match ParseFlagsText(rest[2..][..k])
         case None => None
         case Some(f) => Some(GroupParts(name, f.0, f.1, false, rest[2..][k + 1..])))
    else Some(GroupParts(name, 0, 0, false, rest))
  }

  /** Reads a group's text: `(`, the name, the mode, the child's text, `)`. */
  function ReadGroup(t: Bytes): Option<GroupParts>
  {
    if |t| < 2 || t[0] != LParen || t[|t| - 1] != RParen then None
    else match ReadName(t[1..|t| - 1])
      case None => None
      case Some(p) => ReadMode(p.0, p.1)
  }

  // ------------------------------------------------------------------ flags text

  /** The set letters come first; `-` and the unset letters follow only when some
      flag is unset (an empty set part writes nothing). */
  lemma FlagsTextShape(s: Flag, u: Flag)
    ensures FlagsText(s, u) == FlagString(s) + (if u != 0 then [Dash] + FlagString(u) else [])
  {
    FlagStringIgnoresUndefined(s);
  }

  /** The flag text is empty exactly when no defined flag is set and no flag at all
      is unset: an unset part made only of undefined bits still writes its `-`. */
  lemma FlagsTextEmpty(s: Flag, u: Flag)
    ensures |FlagsText(s, u)| == 0 <==> s & Defined == 0 && u == 0
  {
    FlagsTextShape(s, u);
    FlagStringIgnoresUndefined(s);
    FlagStringInjective(s, 0);
  }

  /** Only flag letters and `-` are written, so neither `:` nor `)` ever is. */
  lemma FlagsTextBytes(s: Flag, u: Flag)
    ensures Colon !in FlagsText(s, u) && RParen !in FlagsText(s, u)
    ensures UpperP !in FlagsText(s, u)
  {
    FlagsTextShape(s, u);
    FlagStringLetters(s, Colon);
    FlagStringLetters(u, Colon);
    FlagStringLetters(s, RParen);
    FlagStringLetters(u, RParen);
    FlagStringLetters(s, UpperP);
    FlagStringLetters(u, UpperP);
  }

  /** Flag letters with no `-` read as set flags only. */
  lemma ParseFlagsSingle(a: Bytes, x: Flag)
    requires Dash !in a && ParseFlags(a) == Some(x)
    ensures ParseFlagsText(a) == Some((x, 0))
  {
  }

  /** Letters, `-`, letters read as set flags and unset flags. */
  lemma ParseFlagsPair(a: Bytes, b: Bytes, x: Flag, y: Flag)
    requires Dash !in a && ParseFlags(a) == Some(x) && ParseFlags(b) == Some(y)
    ensures ParseFlagsText(a + [Dash] + b) == Some((x, y))
  {
    CutAfter(a, Dash, b);
  }

  /** Reading a group's flag text gives back the defined set and unset flags. */
  lemma ParseFlagsTextRoundTrip(s: Flag, u: Flag)
    ensures ParseFlagsText(FlagsText(s, u)) == Some((s & Defined, u & Defined))
  {
    if u == 0 {
      ParseSetFlagsOnly(s);
    } else {
      ParseSetAndUnsetFlags(s, u);
    }
  }

  lemma ParseSetFlagsOnly(s: Flag)
    ensures ParseFlagsText(FlagsText(s, 0)) == Some((s & Defined, 0))
  {
    var a := FlagString(s);
    FlagStringLetters(s, Dash);
    ParseFlagString(s);
    FlagsTextShape(s, 0);
    assert FlagsText(s, 0) == a + [];
    assert a + [] == a;
    ParseFlagsSingle(a, s & Defined);
  }

  lemma ParseSetAndUnsetFlags(s: Flag, u: Flag)
    requires u != 0
    ensures ParseFlagsText(FlagsText(s, u)) == Some((s & Defined, u & Defined))
  {
    var a := FlagString(s);
    var b := FlagString(u);
    FlagStringLetters(s, Dash);
    ParseFlagString(s);
    ParseFlagString(u);
    FlagsTextShape(s, u);
    Reassociate(a, [Dash], b);
    ParseFlagsPair(a, b, s & Defined, u & Defined);
  }

  // ------------------------------------------------------------------- group text

  lemma GroupTextParts(name: Bytes, s: Flag, u: Flag, noCapture: bool, inner: Bytes)
    ensures GroupText(name, s, u, noCapture, inner)
         == [LParen] + NameText(name) + ModeText(noCapture, FlagsText(s, u)) + inner + [RParen]
  {
  }

  lemma ReadNameRoundTrip(name: Bytes, rest: Bytes)
    requires RAngle !in name
    requires name == [] ==> !(|rest| >= 3 && rest[0] == Question && rest[1] == UpperP && rest[2] == LAngle)
    ensures ReadName(NameText(name) + rest) == Some((name, rest))
  {
    var body := NameText(name) + rest;
    if name != [] {
      var after := name + [RAngle] + rest;
      assert body[0] == Question && body[1] == UpperP && body[2] == LAngle;
      assert body[3..] == after;
      FindAfter(name, RAngle, rest);
      assert after[..|name|] == name;
      assert after[|name| + 1..] == rest;
    } else {
      assert body == rest;
    }
  }

  /** `?flags:` then the child's text reads as a non-capturing group's mode. */
  lemma ReadNoCapture(name: Bytes, s: Flag, u: Flag, inner: Bytes)
    ensures ReadMode(name, ModeText(true, FlagsText(s, u)) + inner)
         == Some(GroupParts(name, s & Defined, u & Defined, true, inner))
  {
    var flags := FlagsText(s, u);
    var rest := ModeText(true, flags) + inner;
    var after := flags + [Colon] + inner;
    assert rest[0] == Question && rest[1..] == after;
    assert FindByte(after, Colon) == Some(|flags|) by {
      FlagsTextBytes(s, u);
      FindAfter(flags, Colon, inner);
    }
    assert ParseFlagsText(after[..|flags|]) == Some((s & Defined, u & Defined)) by {
      assert after[..|flags|] == flags;
      ParseFlagsTextRoundTrip(s, u);
    }
    assert after[|flags| + 1..] == inner;
  }

  /** `(?flags)` then the child's text reads as a capturing group's flags. */
  lemma ReadDirective(name: Bytes, s: Flag, u: Flag, inner: Bytes)
    requires |FlagsText(s, u)| > 0
    ensures ReadMode(name, ModeText(false, FlagsText(s, u)) + inner)
         == Some(GroupParts(name, s & Defined, u & Defined, false, inner))
  {
    var flags := FlagsText(s, u);
    var rest := ModeText(false, flags) + inner;
    var after := flags + [RParen] + inner;
    assert rest[0] == LParen && rest[1] == Question && rest[2..] == after;
    assert FindByte(after, RParen) == Some(|flags|) by {
      FlagsTextBytes(s, u);
      FindAfter(flags, RParen, inner);
    }
    assert ParseFlagsText(after[..|flags|]) == Some((s & Defined, u & Defined)) by {
      assert after[..|flags|] == flags;
      ParseFlagsTextRoundTrip(s, u);
    }
    assert after[|flags| + 1..] == inner;
  }

  lemma ReadModeRoundTrip(name: Bytes, s: Flag, u: Flag, noCapture: bool, inner: Bytes)
    requires noCapture || |FlagsText(s, u)| > 0 || !LooksLikeDirective(inner)
    ensures ReadMode(name, ModeText(noCapture, FlagsText(s, u)) + inner)
         == Some(GroupParts(name, s & Defined, u & Defined, noCapture, inner))
  {
    if noCapture {
      ReadNoCapture(name, s, u, inner);
    } else if |FlagsText(s, u)| > 0 {
      ReadDirective(name, s, u, inner);
    } else {
      FlagsTextEmpty(s, u);
      assert ModeText(noCapture, FlagsText(s, u)) + inner == inner;
    }
  }

  /** A name is never followed by text that reads as another name. */
  lemma NoSecondName(s: Flag, u: Flag, noCapture: bool, inner: Bytes)
    requires noCapture || |FlagsText(s, u)| > 0 || !LooksLikeDirective(inner)
    ensures var rest := ModeText(noCapture, FlagsText(s, u)) + inner;
            !(|rest| >= 3 && rest[0] == Question && rest[1] == UpperP && rest[2] == LAngle)
  {
    var flags := FlagsText(s, u);
    if noCapture && |flags| > 0 {
      FlagsTextBytes(s, u);
      assert flags[0] in flags;
    }
  }

  lemma RenderGroupParts(g: GroupNode)
    ensures Render(g) == [LParen] + (NameText(g.name) + (ModeText(g.noCapture, FlagsText(g.setFlags, g.unsetFlags)) + Render(g.child))) + [RParen]
  {
    GroupTextParts(g.name, g.setFlags, g.unsetFlags, g.noCapture, Render(g.child));
  }

  lemma ReadGroupWrapped(body: Bytes, p: (Bytes, Bytes))
    requires ReadName(body) == Some(p)
    ensures ReadGroup([LParen] + body + [RParen]) == ReadMode(p.0, p.1)
  {
    var t := [LParen] + body + [RParen];
    assert t[1..|t| - 1] == body;
  }

  /** A group's text reads back as its name, its defined flags, its capture mode and
      its child's text, provided the name has no `>` and a plain capturing group's
      child does not itself start like a flag directive. */
  lemma {:induction false} GroupRoundTrip(g: GroupNode)
    requires RAngle !in g.name
    requires g.noCapture || |FlagsText(g.setFlags, g.unsetFlags)| > 0 || !LooksLikeDirective(Render(g.child))
    ensures ReadGroup(Render(g))
         == Some(GroupParts(g.name, g.setFlags & Defined, g.unsetFlags & Defined, g.noCapture, Render(g.child)))
  {
    var inner := Render(g.child);
    var flags := FlagsText(g.setFlags, g.unsetFlags);
    var rest := ModeText(g.noCapture, flags) + inner;
    var body := NameText(g.name) + rest;
    RenderGroupParts(g);
    NoSecondName(g.setFlags, g.unsetFlags, g.noCapture, inner);
    ReadNameRoundTrip(g.name, rest);
    ReadGroupWrapped(body, (g.name, rest));
    ReadModeRoundTrip(g.name, g.setFlags, g.unsetFlags, g.noCapture, inner);
  }

  /** Every group's text is bracketed by its own parentheses around its child's. */
  lemma GroupDelimited(g: GroupNode)
    ensures var t := Render(g);
            |t| >= |Render(g.child)| + 2 && t[0] == LParen && t[|t| - 1] == RParen
    ensures var t := Render(g);
            t[|t| - 1 - |Render(g.child)|..|t| - 1] == Render(g.child)
  {
    GroupTextChild(g.name, g.setFlags, g.unsetFlags, g.noCapture, Render(g.child));
  }

  // --------------------------------------------------------------------- mutators

  /** After `NoCapture()` the group reads back as non-capturing and unnamed, whatever
      its child. */
  lemma NoCaptureReadsBack(g: GroupNode)
    ensures ReadGroup(Render(NoCapture(g)))
         == Some(GroupParts([], g.setFlags & Defined, g.unsetFlags & Defined, true, Render(g.child)))
  {
    GroupRoundTrip(NoCapture(g));
  }

  /** After `CaptureAs(name)` the group reads back as capturing under that name. */
  lemma CaptureAsReadsBack(g: GroupNode, name: Bytes)
    requires RAngle !in name
    requires |FlagsText(g.setFlags, g.unsetFlags)| > 0 || !LooksLikeDirective(Render(g.child))
    ensures ReadGroup(Render(CaptureAs(g, name)))
         == Some(GroupParts(name, g.setFlags & Defined, g.unsetFlags & Defined, false, Render(g.child)))
  {
    GroupRoundTrip(CaptureAs(g, name));
  }

  /** `SetFlags` replaces rather than adds: only the last call's flags are read back. */
  lemma SetFlagsLastWins(g: GroupNode, a: Flag, b: Flag)
    requires RAngle !in g.name
    requires g.noCapture || |FlagsText(b, g.unsetFlags)| > 0 || !LooksLikeDirective(Render(g.child))
    ensures ReadGroup(Render(SetFlags(SetFlags(g, a), b)))
         == Some(GroupParts(g.name, b & Defined, g.unsetFlags & Defined, g.noCapture, Render(g.child)))
  {
    GroupRoundTrip(SetFlags(SetFlags(g, a), b));
  }

  /** `UnsetFlags` replaces rather than adds, and leaves the set flags alone. */
  lemma UnsetFlagsLastWins(g: GroupNode, a: Flag, b: Flag)
    requires RAngle !in g.name
    requires g.noCapture || |FlagsText(g.setFlags, b)| > 0 || !LooksLikeDirective(Render(g.child))
    ensures ReadGroup(Render(UnsetFlags(UnsetFlags(g, a), b)))
         == Some(GroupParts(g.name, g.setFlags & Defined, b & Defined, g.noCapture, Render(g.child)))
  {
    GroupRoundTrip(UnsetFlags(UnsetFlags(g, a), b));
  }

  /** One call of a group mutator, as a value, so that chains of calls can be
      stated. */
  datatype Step =
    | GroupStep
    | CaptureStep
    | CaptureAsStep(name: Bytes)
    | NoCaptureStep
    | SetFlagsStep(flags: Flag)
    | UnsetFlagsStep(flags: Flag)

  function ApplyStep(g: GroupNode, step: Step): GroupNode
  {
    match step
    case GroupStep => Group(g)
    case CaptureStep => Capture(g)
    case CaptureAsStep(name) => CaptureAs(g, name)
    case NoCaptureStep => NoCapture(g)
    case SetFlagsStep(f) => SetFlags(g, f)
    case UnsetFlagsStep(f) => UnsetFlags(g, f)
  }

  /** The calls made one after another, first to last. */
  function Apply(g: GroupNode, steps: seq<Step>): GroupNode
    decreases |steps|
  {
    if steps == [] then g else Apply(ApplyStep(g, steps[0]), steps[1..])
  }

  /** No chain of group mutators turns a consistent group into one that is both
      named and non-capturing. */
  lemma {:induction false} MutatorsKeepConsistent(g: GroupNode, steps: seq<Step>)
    requires CaptureConsistent(g)
    ensures CaptureConsistent(Apply(g, steps))
    decreases |steps|
  {
    if steps != [] {
      MutatorsKeepConsistent(ApplyStep(g, steps[0]), steps[1..]);
    }
  }

  /** Every group built by `Group()` from another node, then changed by any chain
      of group mutators, is never both named and non-capturing. */
  lemma GroupChainsConsistent(n: Node, steps: seq<Step>)
    requires !n.Grouped?
    ensures CaptureConsistent(Apply(Group(n), steps))
  {
    MutatorsKeepConsistent(Group(n), steps);
  }
}

=== FILE: quantifiers.dfy ===
/** What a repetition's quantifier text means, read back by a parser of the
    quantifier syntax (`*`, `+`, `?`, `{n}`, `{n,}`, `{n,m}`, each optionally
    followed by `?` for the lazy form), and proofs that it reads back the
    repetition the node asks for. */
module Quantifiers {
  import opened Text
  import opened Decimal
  import opened Regen

  /** Reads the inside of `{...}`: `n`, `n,` or `n,m`. */
  function ParseBraces(body: Bytes): Option<Bounds>
  {
    match FindByte(body, Comma)
    case None =>
      (match ParseNat(body)
       case Some(n) => Some(Bounds(n, Some(n), false))
       case None => None)
    case Some(k) =>
      (match ParseNat(body[..k])
       case None => None
       case Some(lo) =>
         if k + 1 == |body| then Some(Bounds(lo, None, false))
         else match ParseNat(body[k + 1..])
           case Some(hi) => Some(Bounds(lo, Some(hi), false))
           case None => None)
  }

  /** Reads a quantifier without the lazy marker. */
  function ParseGreedy(s: Bytes): Option<Bounds>
  {
    if s == [Star] then Some(Bounds(0, None, false))
    else if s == [Plus] then Some(Bounds(1, None, false))
    else if s == [Question] then Some(Bounds(0, Some(1), false))
    else if |s| >= 2 && s[0] == LBrace && s[|s| - 1] == RBrace then ParseBraces(s[1..|s| - 1])
    else None
  }

  /** Reads a quantifier; a `?` after a complete quantifier makes it lazy. */
  function ParseQuantifier(s: Bytes): Option<Bounds>
  {
    if |s| >= 2 && s[|s| - 1] == Question then
      match ParseGreedy(s[..|s| - 1])
      case Some(b) => Some(b.(lazy := true))
      case None => None
    else ParseGreedy(s)
  }

  lemma NoCommaInDigits(n: nat)
    ensures Comma !in Digits(n)
  {
  }

  lemma BracesExact(n: nat)
    ensures ParseBraces(Digits(n)) == Some(Bounds(n, Some(n), false))
  {
    NoCommaInDigits(n);
    ParseDigits(n);
  }

  lemma BracesOpen(n: nat)
    ensures ParseBraces(Digits(n) + [Comma]) == Some(Bounds(n, None, false))
  {
    var body := Digits(n) + [Comma];
    NoCommaInDigits(n);
    FindAfter(Digits(n), Comma, []);
    assert Digits(n) + [Comma] + [] == body;
    assert body[..|Digits(n)|] == Digits(n);
    ParseDigits(n);
  }

  /** `lo,hi` reads as the range from `lo` to `hi` when the first comma is the one between. */
  lemma BracesPair(a: Bytes, b: Bytes, n: nat, m: nat)
    requires FindByte(a + [Comma] + b, Comma) == Some(|a|)
    requires ParseNat(a) == Some(n) && ParseNat(b) == Some(m)
    ensures ParseBraces(a + [Comma] + b) == Some(Bounds(n, Some(m), false))
  {
    var body := a + [Comma] + b;
    assert body[..|a|] == a;
    assert body[|a| + 1..] == b;
  }

  lemma BracesRange(n: nat, m: nat)
    ensures ParseBraces(Digits(n) + [Comma] + Digits(m)) == Some(Bounds(n, Some(m), false))
  {
    NoCommaInDigits(n);
    FindAfter(Digits(n), Comma, Digits(m));
    ParseDigits(n);
    ParseDigits(m);
    BracesPair(Digits(n), Digits(m), n, m);
  }

  /** Below 2^63 a count is written as its plain decimal digits. */
  lemma SmallCount(x: Uint)
    requires x < 0x8000_0000_0000_0000
    ensures Itoa(AsInt(x)) == Digits(x)
  {
  }

  /** From 2^63 on, Go's `int(x)` wraps, so the count is written with a minus sign. */
  lemma WrappedCount(x: Uint)
    requires x >= 0x8000_0000_0000_0000
    ensures Itoa(AsInt(x)) == [Minus] + Digits(0x1_0000_0000_0000_0000 - x)
  {
  }

  /** `Min(2^64 - 1)` without a maximum writes `{-1,}`, which no parser of counts reads. */
  lemma HugeMinimum()
    ensures Quantifier(0xFFFF_FFFF_FFFF_FFFF, 0, false, false) == [LBrace, Minus, Zero + 1, Comma, RBrace]
    ensures ParseQuantifier(Quantifier(0xFFFF_FFFF_FFFF_FFFF, 0, false, false)) == None
  {
    WrappedCount(0xFFFF_FFFF_FFFF_FFFF);
    var q := Quantifier(0xFFFF_FFFF_FFFF_FFFF, 0, false, false);
    var body: Bytes := [Minus, Zero + 1, Comma];
    assert q[1..|q| - 1] == body;
    assert FindByte(body, Comma) == Some(2);
    assert body[..2] == [Minus, Zero + 1];
    assert !IsDigit(Minus);
  }

  /** The quantifier without its lazy marker reads back as the greedy repetition. */
  lemma {:induction false} GreedyRoundTrip(min: Uint, max: Uint, hasMax: bool)
    requires min < 0x8000_0000_0000_0000 && max < 0x8000_0000_0000_0000
    ensures ParseGreedy(Quantifier(min, max, hasMax, false)) == Some(Bounds(min, if hasMax then Some(max) else None, false))
    ensures Quantifier(min, max, hasMax, false)[|Quantifier(min, max, hasMax, false)| - 1] != Question
            || Quantifier(min, max, hasMax, false) == [Question]
  {
    var q := Quantifier(min, max, hasMax, false);
    SmallCount(min);
    SmallCount(max);
    if !hasMax {
      if min == 0 {
        assert q == [Star];
      } else if min == 1 {
        assert q == [Plus];
      } else {
        var body := Digits(min) + [Comma];
        assert q == [LBrace] + body + [RBrace];
        assert q[0] == LBrace && q[|q| - 1] == RBrace && |q| >= 3;
        assert q[1..|q| - 1] == body;
        BracesOpen(min);
        assert ParseGreedy(q) == ParseBraces(body);
      }
    } else if max == 1 && min == 0 {
      assert q == [Question];
    } else if min == max {
      assert q == [LBrace] + Digits(min) + [RBrace];
      assert q[0] == LBrace && q[|q| - 1] == RBrace && |q| >= 3;
      assert q[1..|q| - 1] == Digits(min);
      BracesExact(min);
      assert ParseGreedy(q) == ParseBraces(Digits(min));
    } else {
      var body := Digits(min) + [Comma] + Digits(max);
      assert q == [LBrace] + body + [RBrace];
      assert q[0] == LBrace && q[|q| - 1] == RBrace && |q| >= 3;
      assert q[1..|q| - 1] == body;
      BracesRange(min, max);
      assert ParseGreedy(q) == ParseBraces(body);
    }
  }

  /** The quantifier written for a repetition reads back as exactly the bounds and
      greediness the node asks for (counts below 2^63, which Go's `int` holds). */
  lemma QuantifierRoundTrip(min: Uint, max: Uint, hasMax: bool, ungreedy: bool)
    requires min < 0x8000_0000_0000_0000 && max < 0x8000_0000_0000_0000
    ensures ParseQuantifier(Quantifier(min, max, hasMax, ungreedy))
         == Some(Bounds(min, if hasMax then Some(max) else None, ungreedy))
  {
    GreedyRoundTrip(min, max, hasMax);
    var g := Quantifier(min, max, hasMax, false);
    if ungreedy {
      var q := Quantifier(min, max, hasMax, true);
      assert q == g + [Question];
      assert q[..|q| - 1] == g;
    }
  }

  /** A repeated operand is written bare exactly when it is a group or a class, or
      its text is one byte, or two bytes starting with `\`; otherwise it is put in
      parentheses. Lengths are in bytes. */
  lemma ParenthesisElision(r: RepeatNode)
    ensures var t := Render(r.child);
            var q := Quantifier(r.min, r.max, r.hasMax, r.ungreedy);
            && (Render(r) == t + q || Render(r) == [LParen] + t + [RParen] + q)
            && (Render(r) == t + q <==>
                 r.child.Grouped? || r.child.Class? || |t| == 1 || (|t| == 2 && t[0] == Backslash))
  {
    var t := Render(r.child);
    var q := Quantifier(r.min, r.max, r.hasMax, r.ungreedy);
    if RequiresParens(r.child, t) {
      assert |Render(r)| == |t| + |q| + 2;
    }
  }

  /** The text of a repeated node ends in a quantifier that means its bounds. */
  lemma RenderedQuantifier(r: RepeatNode)
    requires r.min < 0x8000_0000_0000_0000 && r.max < 0x8000_0000_0000_0000
    ensures exists k :: 0 <= k <= |Render(r)| && Render(r)[..k] == Operand(r.child, Render(r.child))
                        && ParseQuantifier(Render(r)[k..]) == Some(RepeatBounds(r))
  {
    var op := Operand(r.child, Render(r.child));
    var q := Quantifier(r.min, r.max, r.hasMax, r.ungreedy);
    QuantifierRoundTrip(r.min, r.max, r.hasMax, r.ungreedy);
    assert Render(r) == op + q;
    assert Render(r)[..|op|] == op && Render(r)[|op|..] == q;
  }

  /** The lazy form is the greedy form plus exactly one `?`. */
  lemma UngreedySuffix(min: Uint, max: Uint, hasMax: bool)
    ensures Quantifier(min, max, hasMax, true) == Quantifier(min, max, hasMax, false) + [Question]
  {
  }

  /** `hasMin` is never read when rendering. */
  lemma RenderIgnoresHasMin(r: RepeatNode, hasMin: bool)
    ensures Render(r.(hasMin := hasMin)) == Render(r)
  {
  }

  /** `Optional()` reads back as zero-or-one, greedy. */
  lemma OptionalMeaning(n: Node)
    ensures ParseQuantifier([Question]) == Some(RepeatBounds(Optional(n)))
  {
  }

  /** `Exactly(n)` writes `{n}` after the operand. */
  lemma ExactlyRender(r: RepeatNode, num: Uint)
    ensures Render(Exactly(r, num))
         == Operand(r.child, Render(r.child)) + ([LBrace] + Itoa(AsInt(num)) + [RBrace] + (if r.ungreedy then [Question] else []))
    ensures num < 0x8000_0000_0000_0000 ==>
              (Render(Exactly(r, num))
               == Operand(r.child, Render(r.child)) + ([LBrace] + Digits(num) + [RBrace] + (if r.ungreedy then [Question] else [])))
  {
    var e := Exactly(r, num);
    var tail := if r.ungreedy then [Question] else [];
    assert e == Repeated(r.child, num, true, num, true, r.ungreedy);
    assert Quantifier(num, num, true, r.ungreedy) == [LBrace] + Itoa(AsInt(num)) + [RBrace] + tail;
    assert Render(e) == Operand(r.child, Render(r.child)) + Quantifier(num, num, true, r.ungreedy);
    if num < 0x8000_0000_0000_0000 {
      SmallCount(num);
    }
  }

  /** `Ungreedy()` adds exactly one `?` to whatever the greedy form writes. */
  lemma UngreedyRender(r: RepeatNode)
    ensures Render(Ungreedy(r)) == Render(Greedy(r)) + [Question]
  {
    var op := Operand(r.child, Render(r.child));
    var greedy := Quantifier(r.min, r.max, r.hasMax, false);
    assert Render(Greedy(r)) == op + greedy;
    assert Render(Ungreedy(r)) == op + Quantifier(r.min, r.max, r.hasMax, true);
    UngreedySuffix(r.min, r.max, r.hasMax);
    Reassociate(op, greedy, [Question]);
  }
}

=== FILE: regen.dfy ===
/** The expression tree and its rendering into pattern text.

    Every node is an immutable value: each mutator returns a changed copy, and
    `Render` is a recursive fold over the tree. Text is bytes, as in Go, so every
    length test below counts bytes, not runes. */
module Regen {
  import opened Text
  import opened Decimal
  import opened Utf8
  import opened Flags

  /** Go's `uint` on a 64-bit platform. */
  type Uint = x: int | 0 <= x < 0x1_0000_0000_0000_0000

  const Backslash: Byte := '\\' as int
  const Caret: Byte := '^' as int
  const Dash: Byte := '-' as int
  const LParen: Byte := '(' as int
  const RParen: Byte := ')' as int
  const LBracket: Byte := '[' as int
  const RBracket: Byte := ']' as int
  const LBrace: Byte := '{' as int
  const RBrace: Byte := '}' as int
  const Comma: Byte := ',' as int
  const Colon: Byte := ':' as int
  const Question: Byte := '?' as int
  const Star: Byte := '*' as int
  const Plus: Byte := '+' as int
  const Bar: Byte := '|' as int
  const LAngle: Byte := '<' as int
  const RAngle: Byte := '>' as int
  const LowerP: Byte := 'p' as int
  const UpperP: Byte := 'P' as int

  /** The four character-class kinds. A set's nested classes are classes too. */
  datatype CharClass =
    | SetClass(chars: seq<Rune>, classes: seq<CharClass>, negated: bool)
    | RangeClass(start: Rune, end: Rune, negated: bool)
    | AsciiClass(name: Bytes, negated: bool)
    | UnicodeClass(name: Bytes, negated: bool)

  datatype Node =
    | Literal(text: Bytes)
    | Multi(children: seq<Node>, separator: Bytes)
    | Grouped(child: Node, name: Bytes, setFlags: Flag, unsetFlags: Flag, noCapture: bool)
    | Repeated(child: Node, min: Uint, hasMin: bool, max: Uint, hasMax: bool, ungreedy: bool)
    | Class(cls: CharClass)

  /** The nodes that have the group mutators (Go's `GroupedRegexp`). */
  type GroupNode = n: Node | n.Grouped? witness Grouped(Literal([]), [], 0, 0, false)

  /** The nodes that have the repetition mutators (Go's `RepeatedRegexp`). */
  type RepeatNode = n: Node | n.Repeated? witness Repeated(Literal([]), 0, false, 0, false, false)

  /** What a quantifier means: at least `lo`, at most `hi` (unbounded when absent),
      and whether fewer repetitions are preferred. */
  datatype Bounds = Bounds(lo: nat, hi: Option<nat>, lazy: bool)

  // ---------------------------------------------------------------- rendering

  /** The pattern text of a node (`Regexp()`). A group is always between
      parentheses, a repetition always ends in a quantifier byte, and a class is
      bracketed unless it is a Unicode class, which starts with `\`. */
  function Render(n: Node): (t: Bytes)
    ensures n.Grouped? ==> |t| >= 2 && t[0] == LParen && t[|t| - 1] == RParen
    ensures n.Repeated? ==> |t| >= 1 && QuantifierByte(t[|t| - 1])
    ensures n.Class? && !n.cls.UnicodeClass? ==> |t| >= 2 && t[0] == LBracket && t[|t| - 1] == RBracket
    ensures n.Class? && n.cls.UnicodeClass? ==> |t| >= 2 && t[0] == Backslash
    decreases n
  {
    match n
    case Literal(text) => text
    case Multi(children, separator) => Join(Texts(children), separator)
    case Grouped(child, name, setFlags, unsetFlags, noCapture) =>
      GroupText(name, setFlags, unsetFlags, noCapture, Render(child))
    case Repeated(child, min, _, max, hasMax, ungreedy) =>
      Operand(child, Render(child)) + Quantifier(min, max, hasMax, ungreedy)
    case Class(c) => ClassRender(c)
  }

  /** The texts of a list of nodes, in order. */
  function Texts(ns: seq<Node>): seq<Bytes>
    decreases ns
  {
    seq(|ns|, i requires 0 <= i < |ns| => Render(ns[i]))
  }

  /** The flag letters of a group: the set flags, then `-` and the unset flags when
      any are unset. At most four letters without unset flags, and never empty
      with them, even when they are all undefined bits. */
  function FlagsText(setFlags: Flag, unsetFlags: Flag): (r: Bytes)
    ensures unsetFlags == 0 ==> |r| <= 4
    ensures unsetFlags != 0 ==> 1 <= |r| <= 9
  {
    (if setFlags != 0 then FlagString(setFlags) else [])
    + (if unsetFlags != 0 then [Dash] + FlagString(unsetFlags) else [])
  }

  /** A group's text (the group's `Regexp()`): the child's text sits just before
      the closing parenthesis. Only a plain capturing group without a name or flags
      adds nothing but the parentheses, and a named or non-capturing one opens
      with `(?`. */
  function GroupText(name: Bytes, setFlags: Flag, unsetFlags: Flag, noCapture: bool, inner: Bytes): (r: Bytes)
    ensures |r| >= |inner| + 2 && r[0] == LParen && r[|r| - 1] == RParen
    ensures |r| == |inner| + 2 <==> name == [] && !noCapture && |FlagsText(setFlags, unsetFlags)| == 0
    ensures name != [] || noCapture ==> r[1] == Question
  {
    [LParen] + NameText(name) + ModeText(noCapture, FlagsText(setFlags, unsetFlags)) + inner + [RParen]
  }

  /** `?P<name>` for a named group, nothing otherwise. */
  function NameText(name: Bytes): Bytes
  {
    if name != [] then [Question, UpperP, LAngle] + name + [RAngle] else []
  }

  /** `?flags:` for a non-capturing group, `(?flags)` for a capturing one with flags. */
  function ModeText(noCapture: bool, flags: Bytes): Bytes
  {
    if noCapture then [Question] + flags + [Colon]
    else if |flags| > 0 then [LParen, Question] + flags + [RParen]
    else []
  }

  /** The child's text ends every group, just before the closing parenthesis. */
  lemma GroupTextChild(name: Bytes, setFlags: Flag, unsetFlags: Flag, noCapture: bool, inner: Bytes)
    ensures var r := GroupText(name, setFlags, unsetFlags, noCapture, inner);
            r[|r| - 1 - |inner|..|r| - 1] == inner
  {
    var r := GroupText(name, setFlags, unsetFlags, noCapture, inner);
    var head := [LParen] + NameText(name) + ModeText(noCapture, FlagsText(setFlags, unsetFlags));
    assert r == head + inner + [RParen];
    assert (head + inner + [RParen])[|head|..|head| + |inner|] == inner;
  }

  /** Whether a repeated operand must be put in parentheses: not when it is a group
      or a class, nor when its text is one byte, or two bytes starting with `\`. */
  predicate RequiresParens(child: Node, text: Bytes)
  {
    && !child.Grouped?
    && !child.Class?
    && |text| != 1
    && !(|text| == 2 && text[0] == Backslash)
  }

  /** The operand of a repetition: its text as it is, or in parentheses. It is left
      bare exactly when it is a group or a class, or its text is one byte, or two
      bytes starting with `\`. */
  function Operand(child: Node, text: Bytes): (r: Bytes)
    ensures r == text || r == [LParen] + text + [RParen]
    ensures r == text <==> child.Grouped? || child.Class? || |text| == 1 || (|text| == 2 && text[0] == Backslash)
  {
    if RequiresParens(child, text) then [LParen] + text + [RParen] else text
  }

  /** Go's `int(x)` on a `uint`: the same 64 bits read as a signed number, so
      values from 2^63 on wrap to negative. */
  function AsInt(x: Uint): (i: int)
    ensures -0x8000_0000_0000_0000 <= i < 0x8000_0000_0000_0000
    ensures (x - i) % 0x1_0000_0000_0000_0000 == 0
    ensures x < 0x8000_0000_0000_0000 ==> i == x
  {
    if x < 0x8000_0000_0000_0000 then x else x - 0x1_0000_0000_0000_0000
  }

  /** The quantifier written after a repeated operand. It starts with `*`, `+`, `?`
      or `{`, ends in a quantifier byte, and ends in `?` exactly when it is lazy or
      is the zero-or-one `?` itself. */
  function Quantifier(min: Uint, max: Uint, hasMax: bool, ungreedy: bool): (q: Bytes)
    ensures |q| >= 1
    ensures q[0] == Star || q[0] == Plus || q[0] == Question || q[0] == LBrace
    ensures QuantifierByte(q[|q| - 1])
    ensures q[|q| - 1] == Question <==> ungreedy || (hasMax && max == 1 && min == 0)
  {
    (if !hasMax then
       if min == 0 then [Star]
       else if min == 1 then [Plus]
       else [LBrace] + Itoa(AsInt(min)) + [Comma, RBrace]
     else if max == 1 && min == 0 then [Question]
     else if min == max then [LBrace] + Itoa(AsInt(min)) + [RBrace]
     else [LBrace] + Itoa(AsInt(min)) + [Comma] + Itoa(AsInt(max)) + [RBrace])
    + (if ungreedy then [Question] else [])
  }

  /** The bytes a quantifier can end in. */
  predicate QuantifierByte(b: Byte)
  {
    b == Star || b == Plus || b == Question || b == RBrace
  }

  /** The repetition a repeated node asks for. `hasMin` plays no part. */
  function RepeatBounds(r: RepeatNode): Bounds
  {
    Bounds(r.min, if r.hasMax then Some(r.max) else None, r.ungreedy)
  }

  function CaretIf(negated: bool): Bytes
  {
    if negated then [Caret] else []
  }

  /** `writeCharSetRune`: a backslash before `\` and `^`, then the rune's UTF-8 bytes;
      one to four bytes in all. */
  function EscapeRune(r: Rune): (e: Bytes)
    ensures 1 <= |e| <= 4
  {
    (if r == Backslash || r == Caret then [Backslash] else []) + EncodeRune(r)
  }

  /** The members of a set, escaped, in order: one to four bytes per member. */
  function EscapeRunes(rs: seq<Rune>): (e: Bytes)
    ensures |rs| <= |e| <= 4 * |rs|
  {
    if rs == [] then [] else EscapeRunes(rs[..|rs| - 1]) + EscapeRune(rs[|rs| - 1])
  }

  /** A Unicode class's text: `\p`, or `\P` when negated, then the name, braced when
      longer than one byte. */
  function UnicodeText(name: Bytes, negated: bool): (t: Bytes)
    ensures |t| >= 2 && t[0] == Backslash
    ensures t[1] == UpperP <==> negated
    ensures t[1] == LowerP <==> !negated
  {
    [Backslash, if negated then UpperP else LowerP]
    + (if |name| > 1 then [LBrace] + name + [RBrace] else name)
  }

  /** What a class contributes inside brackets (`charSetRegexp()`). A negated set
      or range starts with `^`, an ASCII class starts with `[:`, and a Unicode class
      is its own text, starting with `\`. */
  function ClassBody(c: CharClass): (b: Bytes)
    ensures (c.SetClass? || c.RangeClass?) && c.negated ==> |b| >= 1 && b[0] == Caret
    ensures c.AsciiClass? ==> |b| >= 4 && b[0] == LBracket && b[1] == Colon
    ensures c.UnicodeClass? ==> |b| >= 2 && b[0] == Backslash
    decreases c
  {
    match c
    case SetClass(chars, classes, negated) => CaretIf(negated) + EscapeRunes(chars) + Bodies(classes)
    case RangeClass(start, end, negated) => CaretIf(negated) + EscapeRune(start) + [Dash] + EscapeRune(end)
    case AsciiClass(name, negated) => [LBracket, Colon] + CaretIf(negated) + name + [Colon, RBracket]
    case UnicodeClass(name, negated) => UnicodeText(name, negated)
  }

  /** The bodies of nested classes, in order. */
  function Bodies(cs: seq<CharClass>): Bytes
    decreases cs
  {
    if cs == [] then [] else Bodies(cs[..|cs| - 1]) + ClassBody(cs[|cs| - 1])
  }

  /** The text of a class on its own (`Regexp()`): its body, in brackets unless it
      is a Unicode class, whose body is its text. */
  function ClassRender(c: CharClass): (r: Bytes)
    ensures c.UnicodeClass? ==> r == ClassBody(c)
    ensures !c.UnicodeClass? ==> |r| == |ClassBody(c)| + 2 && r[0] == LBracket && r[|r| - 1] == RBracket
    ensures !c.UnicodeClass? ==> r[1..|r| - 1] == ClassBody(c)
  {
    if c.UnicodeClass? then UnicodeText(c.name, c.negated) else [LBracket] + ClassBody(c) + [RBracket]
  }

  /** The builder loop over a set's members (`for _, c := range c.chars`). */
  method WriteMembers(chars: seq<Rune>) returns (out: Bytes)
    ensures out == EscapeRunes(chars)
  {
    out := [];
    var i := 0;
    while i < |chars|
      invariant 0 <= i <= |chars|
      invariant out == EscapeRunes(chars[..i])
    {
      EscapeRunesPrefix(chars, i);
      out := out + EscapeRune(chars[i]);
      i := i + 1;
    }
    assert chars[..i] == chars;
  }

  /** The builder loop over a set's nested classes (`for _, c := range c.charClasses`). */
  method WriteNested(classes: seq<CharClass>) returns (out: Bytes)
    ensures out == Bodies(classes)
  {
    out := [];
    var j := 0;
    while j < |classes|
      invariant 0 <= j <= |classes|
      invariant out == Bodies(classes[..j])
    {
      BodiesPrefix(classes, j);
      out := out + ClassBody(classes[j]);
      j := j + 1;
    }
    assert classes[..j] == classes;
  }

  /** A set's `charSetRegexp()`: the caret, the members, then the nested bodies. */
  method WriteSetBody(c: CharClass) returns (out: Bytes)
    requires c.SetClass?
    ensures out == ClassBody(c)
  {
    var members := WriteMembers(c.chars);
    var nested := WriteNested(c.classes);
    out := CaretIf(c.negated) + members + nested;
    SetBody(c);
  }

  lemma SetBody(c: CharClass)
    requires c.SetClass?
    ensures ClassBody(c) == CaretIf(c.negated) + EscapeRunes(c.chars) + Bodies(c.classes)
  {
  }

  lemma EscapeRunesPrefix(rs: seq<Rune>, i: nat)
    requires i < |rs|
    ensures EscapeRunes(rs[..i + 1]) == EscapeRunes(rs[..i]) + EscapeRune(rs[i])
  {
    assert rs[..i + 1][..i] == rs[..i];
  }

  lemma BodiesPrefix(cs: seq<CharClass>, i: nat)
    requires i < |cs|
    ensures Bodies(cs[..i + 1]) == Bodies(cs[..i]) + ClassBody(cs[i])
  {
    assert cs[..i + 1][..i] == cs[..i];
  }

  lemma {:induction false} BodiesAppend(xs: seq<CharClass>, ys: seq<CharClass>)
    ensures Bodies(xs + ys) == Bodies(xs) + Bodies(ys)
    decreases |ys|
  {
    if ys == [] {
      assert xs + ys == xs;
    } else {
      var init := ys[..|ys| - 1];
      var last := ys[|ys| - 1];
      var zs := xs + ys;
      assert zs[..|zs| - 1] == xs + init && zs[|zs| - 1] == last;
      assert Bodies(zs) == Bodies(xs + init) + ClassBody(last);
      assert Bodies(ys) == Bodies(init) + ClassBody(last);
      BodiesAppend(xs, init);
      Reassociate(Bodies(xs), Bodies(init), ClassBody(last));
    }
  }

  // ------------------------------------------------------------- constructors

  /** `Raw`: the text, passed through untouched, as a node that is neither a group
      nor a class. */
  function Raw(s: Bytes): (n: Node)
    ensures Render(n) == s
    ensures !n.Grouped? && !n.Class?
  {
    Literal(s)
  }

  /** `Sequence`: the children's texts one after the other, as a node that is
      neither a group nor a class. */
  function Sequence(ns: seq<Node>): (n: Node)
    ensures Render(n) == Concat(Texts(ns))
    ensures !n.Grouped? && !n.Class?
  {
    JoinEmptySeparator(Texts(ns));
    Multi(ns, [])
  }

  /** `OneOf`: the choices separated by `|`, in a capturing group. */
  function OneOf(ns: seq<Node>): (g: GroupNode)
    ensures Render(g) == [LParen] + Join(Texts(ns), [Bar]) + [RParen]
    ensures g.child == Multi(ns, [Bar]) && g.name == [] && !g.noCapture && g.setFlags == 0 && g.unsetFlags == 0
  {
    Grouped(Multi(ns, [Bar]), [], 0, 0, false)
  }

  function CharSet(chars: seq<Rune>): (c: CharClass)
    ensures ClassRender(c) == [LBracket] + EscapeRunes(chars) + [RBracket]
  {
    assert ClassBody(SetClass(chars, [], false)) == EscapeRunes(chars);
    SetClass(chars, [], false)
  }

  function CharRange(start: Rune, end: Rune): (c: CharClass)
    ensures ClassRender(c) == [LBracket] + EscapeRune(start) + [Dash] + EscapeRune(end) + [RBracket]
  {
    RangeClass(start, end, false)
  }

  function AsciiCharClass(name: Bytes): (c: CharClass)
    ensures ClassRender(c) == [LBracket, LBracket, Colon] + name + [Colon, RBracket, RBracket]
  {
    AsciiClass(name, false)
  }

  function UnicodeCharClass(name: Bytes): (c: CharClass)
    ensures ClassRender(c) == ClassBody(c) == UnicodeText(name, false)
  {
    UnicodeClass(name, false)
  }

  // ----------------------------------------------------------------- mutators

  /** A group never both carries a name and is non-capturing. */
  predicate CaptureConsistent(g: GroupNode)
  {
    !(g.noCapture && g.name != [])
  }

  /** `Group()`: a group is returned as it is; anything else is wrapped in a plain
      capturing group. */
  function Group(n: Node): (g: GroupNode)
    ensures n.Grouped? ==> g == n
    ensures !n.Grouped? ==> Render(g) == [LParen] + Render(n) + [RParen] && CaptureConsistent(g)
    ensures !n.Grouped? ==> g.child == n && g.name == [] && !g.noCapture && g.setFlags == 0 && g.unsetFlags == 0
  {
    if n.Grouped? then n else Grouped(n, [], 0, 0, false)
  }

  /** `Repeat()`: zero or more times, greedily. */
  function Repeat(n: Node): (r: RepeatNode)
    ensures r.child == n && RepeatBounds(r) == Bounds(0, None, false)
    ensures Render(r) == Operand(n, Render(n)) + [Star]
  {
    Repeated(n, 0, false, 0, false, false)
  }

  /** `Capture()`: a capturing group without a name. */
  function Capture(g: GroupNode): (r: GroupNode)
    ensures CaptureConsistent(r) && !r.noCapture && r.name == []
    ensures r.child == g.child && r.setFlags == g.setFlags && r.unsetFlags == g.unsetFlags
  {
    g.(noCapture := false, name := [])
  }

  /** `CaptureAs(name)`: a capturing group with that name. */
  function CaptureAs(g: GroupNode, name: Bytes): (r: GroupNode)
    ensures CaptureConsistent(r) && !r.noCapture && r.name == name
    ensures r.child == g.child && r.setFlags == g.setFlags && r.unsetFlags == g.unsetFlags
  {
    g.(noCapture := false, name := name)
  }

  /** `NoCapture()`: a non-capturing group, which therefore has no name. */
  function NoCapture(g: GroupNode): (r: GroupNode)
    ensures CaptureConsistent(r) && r.noCapture && r.name == []
    ensures r.child == g.child && r.setFlags == g.setFlags && r.unsetFlags == g.unsetFlags
  {
    g.(noCapture := true, name := [])
  }

  /** `SetFlags(flags)`: replaces the set flags; nothing else changes. */
  function SetFlags(g: GroupNode, flags: Flag): (r: GroupNode)
    ensures r.setFlags == flags
    ensures r.child == g.child && r.name == g.name && r.noCapture == g.noCapture && r.unsetFlags == g.unsetFlags
    ensures CaptureConsistent(r) == CaptureConsistent(g)
  {
    g.(setFlags := flags)
  }

  /** `UnsetFlags(flags)`: replaces the unset flags; nothing else changes. */
  function UnsetFlags(g: GroupNode, flags: Flag): (r: GroupNode)
    ensures r.unsetFlags == flags
    ensures r.child == g.child && r.name == g.name && r.noCapture == g.noCapture && r.setFlags == g.setFlags
    ensures CaptureConsistent(r) == CaptureConsistent(g)
  {
    g.(unsetFlags := flags)
  }

  /** `Min(min)`: at least `min` times; upper bound, greediness and operand kept. */
  function Min(r: RepeatNode, min: Uint): (q: RepeatNode)
    ensures q.child == r.child && RepeatBounds(q) == RepeatBounds(r).(lo := min)
  {
    r.(min := min, hasMin := true)
  }

  /** `Max(max)`: at most `max` times; lower bound, greediness and operand kept. */
  function Max(r: RepeatNode, max: Uint): (q: RepeatNode)
    ensures q.child == r.child && RepeatBounds(q) == RepeatBounds(r).(hi := Some(max))
  {
    r.(max := max, hasMax := true)
  }

  /** `Exactly(num)`: both bounds `num` at once. */
  function Exactly(r: RepeatNode, num: Uint): (q: RepeatNode)
    ensures q.child == r.child && RepeatBounds(q) == Bounds(num, Some(num), r.ungreedy)
    ensures q == Max(Min(r, num), num)
  {
    r.(min := num, hasMin := true, max := num, hasMax := true)
  }

  /** `Greedy()`: prefers more repetitions; bounds and operand kept. */
  function Greedy(r: RepeatNode): (q: RepeatNode)
    ensures q.child == r.child && RepeatBounds(q) == RepeatBounds(r).(lazy := false)
  {
    r.(ungreedy := false)
  }

  /** `Ungreedy()`: prefers fewer repetitions; bounds and operand kept. */
  function Ungreedy(r: RepeatNode): (q: RepeatNode)
    ensures q.child == r.child && RepeatBounds(q) == RepeatBounds(r).(lazy := true)
  {
    r.(ungreedy := true)
  }

  /** `Optional()`: `Repeat().Min(0).Max(1)`, zero or one time. */
  function Optional(n: Node): (r: RepeatNode)
    ensures r.child == n && RepeatBounds(r) == Bounds(0, Some(1), false)
    ensures Render(r) == Operand(n, Render(n)) + [Question]
  {
    var r := Max(Min(Repeat(n), 0), 1);
    assert r == Repeated(n, 0, true, 1, true, false);
    assert Quantifier(0, 1, true, false) == [Question];
    r
  }

  /** `Negate()`: flips the class's negation and nothing else. */
  function Negate(c: CharClass): (r: CharClass)
    ensures r.negated == !c.negated
    ensures r.(negated := c.negated) == c
  {
    c.(negated := !c.negated)
  }

  /** `Append(classes...)`: a set whose body is the receiver's body followed by the
      bodies of `more`, with the receiver's negation. A set keeps its own members;
      any other class becomes the first nested class of a new set, so a negated
      receiver's negation is written a second time inside: another `^` for a
      range or an ASCII class, `\P` for a Unicode class. */
  function Append(c: CharClass, more: seq<CharClass>): (r: CharClass)
    ensures r.SetClass? && r.negated == c.negated
    ensures c.SetClass? ==> r.chars == c.chars && ClassBody(r) == ClassBody(c) + Bodies(more)
    ensures !c.SetClass? ==> r.chars == [] && ClassBody(r) == CaretIf(c.negated) + ClassBody(c) + Bodies(more)
  {
    AppendBody(c, more);
    if c.SetClass? then SetClass(c.chars, c.classes + more, c.negated)
    else SetClass([], [c] + more, c.negated)
  }

  lemma AppendBody(c: CharClass, more: seq<CharClass>)
    ensures c.SetClass? ==> ClassBody(SetClass(c.chars, c.classes + more, c.negated)) == ClassBody(c) + Bodies(more)
    ensures ClassBody(SetClass([], [c] + more, c.negated)) == CaretIf(c.negated) + ClassBody(c) + Bodies(more)
  {
    if c.SetClass? {
      AppendSetBody(c, more);
    }
    AppendWrappedBody(c, more);
  }

  lemma AppendSetBody(c: CharClass, more: seq<CharClass>)
    requires c.SetClass?
    ensures ClassBody(SetClass(c.chars, c.classes + more, c.negated)) == ClassBody(c) + Bodies(more)
  {
    var head := CaretIf(c.negated) + EscapeRunes(c.chars);
    var inner := Bodies(c.classes);
    var tail := Bodies(more);
    SetBody(c);
    SetBody(SetClass(c.chars, c.classes + more, c.negated));
    BodiesAppend(c.classes, more);
    Reassociate(head, inner, tail);
  }

  lemma AppendWrappedBody(c: CharClass, more: seq<CharClass>)
    ensures ClassBody(SetClass([], [c] + more, c.negated)) == CaretIf(c.negated) + ClassBody(c) + Bodies(more)
  {
    var head := CaretIf(c.negated);
    var none: seq<Rune> := [];
    var wrapped := SetClass(none, [c] + more, c.negated);
    SetBody(wrapped);
    assert EscapeRunes(none) == [];
    assert ClassBody(wrapped) == head + Bodies([c] + more);
    BodiesAppend([c], more);
    BodiesSingle(c);
    Reassociate(head, ClassBody(c), Bodies(more));
  }

  lemma BodiesSingle(c: CharClass)
    ensures Bodies([c]) == ClassBody(c)
  {
    assert [c][..0] == [];
  }
}

=== FILE: sequences.dfy ===
/** Multi-part patterns: a sequence writes its parts back to back, an alternation
    writes its choices between `|`s inside a capturing group. */
module Sequences {
  import opened Text
  import opened Regen

  /** The builder loop of a multi-part pattern (`multiRegexp.Regexp`). */
  method WriteMulti(m: Node) returns (out: Bytes)
    requires m.Multi?
    ensures out == Render(m)
    ensures |m.children| >= 1 ==> |out| == TotalLength(Texts(m.children)) + (|m.children| - 1) * |m.separator|
  {
    out := JoinLoop(Texts(m.children), m.separator);
    if |m.children| >= 1 {
      JoinLength(Texts(m.children), m.separator);
    }
  }

  lemma TextsAppend(xs: seq<Node>, ys: seq<Node>)
    ensures Texts(xs + ys) == Texts(xs) + Texts(ys)
  {
  }

  /** A sequence of two lists writes the first list's text, then the second's. */
  lemma SequenceAppend(xs: seq<Node>, ys: seq<Node>)
    ensures Render(Sequence(xs + ys)) == Render(Sequence(xs)) + Render(Sequence(ys))
  {
    TextsAppend(xs, ys);
    ConcatAppend(Texts(xs), Texts(ys));
  }

  /** An empty sequence writes nothing; an empty alternation writes `()`. */
  lemma EmptyMulti()
    ensures Render(Sequence([])) == []
    ensures Render(OneOf([])) == [LParen, RParen]
  {
  }

  /** A single choice is just that choice in a capturing group. */
  lemma OneOfSingle(n: Node)
    ensures Render(OneOf([n])) == [LParen] + Render(n) + [RParen]
  {
    assert Texts([n]) == [Render(n)];
  }

  /** The alternation's text is `(`, then exactly one `|` between each two
      neighbouring choices beyond the ones the choices write themselves, then `)`. */
  lemma OneOfBars(ns: seq<Node>)
    requires |ns| >= 1
    ensures Count(Render(OneOf(ns)), Bar) == CountAll(Texts(ns), Bar) + |ns| - 1
  {
    var inner := Join(Texts(ns), [Bar]);
    JoinSeparatorCount(Texts(ns), Bar);
    CountAppend([LParen], inner, Bar);
    CountAppend([LParen] + inner, [RParen], Bar);
    assert Count([LParen], Bar) == 0 by {
      assert [LParen][..0] == [];
    }
    assert Count([RParen], Bar) == 0 by {
      assert [RParen][..0] == [];
    }
  }

  /** When no choice writes a `|` of its own, cutting the text between the
      parentheses at each `|` gives back every choice's text, in order. */
  lemma OneOfChoices(ns: seq<Node>)
    requires |ns| >= 1
    requires forall i | 0 <= i < |ns| :: Bar !in Render(ns[i])
    ensures var t := Render(OneOf(ns));
            |t| >= 2 && t[0] == LParen && t[|t| - 1] == RParen && Split(t[1..|t| - 1], Bar) == Texts(ns)
  {
    var inner := Join(Texts(ns), [Bar]);
    var t := Render(OneOf(ns));
    assert t[1..|t| - 1] == inner;
    SplitJoin(Texts(ns), Bar);
  }
}

=== FILE: text.dfy ===
/** Byte strings, the way Go's `string` holds pattern text: `len` counts bytes,
    and every `strings.Builder` write appends bytes. */
module Text {

  datatype Option<T> = None | Some(value: T)

  type Byte = b: int | 0 <= b < 256
  type Bytes = seq<Byte>

  /** All pieces one after the other (a builder written to piece by piece). */
  function Concat(ts: seq<Bytes>): Bytes
  {
    if ts == [] then [] else Concat(ts[..|ts| - 1]) + ts[|ts| - 1]
  }

  /** The pieces in order, with `sep` between each two neighbours and nowhere else. */
  function Join(ts: seq<Bytes>, sep: Bytes): Bytes
  {
    if |ts| == 0 then []
    else if |ts| == 1 then ts[0]
    else Join(ts[..|ts| - 1], sep) + sep + ts[|ts| - 1]
  }

  /** Number of occurrences of byte `b` in `s`. */
  function Count(s: Bytes, b: Byte): nat
  {
    if s == [] then 0 else Count(s[..|s| - 1], b) + (if s[|s| - 1] == b then 1 else 0)
  }

  /** Sum of `Count` over the pieces. */
  function CountAll(ts: seq<Bytes>, b: Byte): nat
  {
    if ts == [] then 0 else CountAll(ts[..|ts| - 1], b) + Count(ts[|ts| - 1], b)
  }

  /** Sum of the lengths of the pieces. */
  function TotalLength(ts: seq<Bytes>): nat
  {
    if ts == [] then 0 else TotalLength(ts[..|ts| - 1]) + |ts[|ts| - 1]|
  }

  lemma {:induction false} CountAppend(s: Bytes, t: Bytes, b: Byte)
    ensures Count(s + t, b) == Count(s, b) + Count(t, b)
    decreases |t|
  {
    if t == [] {
      assert s + t == s;
    } else {
      assert (s + t)[..|s + t| - 1] == s + t[..|t| - 1];
      CountAppend(s, t[..|t| - 1], b);
    }
  }

  lemma {:induction false} ConcatAppend(xs: seq<Bytes>, ys: seq<Bytes>)
    ensures Concat(xs + ys) == Concat(xs) + Concat(ys)
    decreases |ys|
  {
    if ys == [] {
      assert xs + ys == xs;
    } else {
      var init := ys[..|ys| - 1];
      var last := ys[|ys| - 1];
      var zs := xs + ys;
      assert zs[..|zs| - 1] == xs + init && zs[|zs| - 1] == last;
      assert Concat(zs) == Concat(xs + init) + last;
      ConcatAppend(xs, init);
      Reassociate(Concat(xs), Concat(init), last);
    }
  }

  /** With an empty separator a join is plain concatenation. */
  lemma {:induction false} JoinEmptySeparator(ts: seq<Bytes>)
    ensures Join(ts, []) == Concat(ts)
  {
    if |ts| == 0 {
    } else if |ts| == 1 {
      assert ts[..0] == [];
    } else {
      JoinEmptySeparator(ts[..|ts| - 1]);
    }
  }

  /** A join of n >= 1 pieces is as long as the pieces plus n - 1 separators. */
  lemma {:induction false} JoinLength(ts: seq<Bytes>, sep: Bytes)
    requires |ts| >= 1
    ensures |Join(ts, sep)| == TotalLength(ts) + (|ts| - 1) * |sep|
  {
    if |ts| == 1 {
      assert ts[..0] == [];
    } else {
      JoinLength(ts[..|ts| - 1], sep);
    }
  }

  /** With a one-byte separator `b`, the join holds the pieces' own `b`s plus exactly
      n - 1 more: one separator between each two neighbours, none leading or trailing. */
  lemma {:induction false} JoinSeparatorCount(ts: seq<Bytes>, b: Byte)
    requires |ts| >= 1
    ensures Count(Join(ts, [b]), b) == CountAll(ts, b) + |ts| - 1
  {
    if |ts| == 1 {
      assert ts[..0] == [];
    } else {
      var init := ts[..|ts| - 1];
      JoinSeparatorCount(init, b);
      CountAppend(Join(init, [b]), [b], b);
      CountAppend(Join(init, [b]) + [b], ts[|ts| - 1], b);
      assert Count([b], b) == 1 by {
        assert [b][..0] == [];
      }
    }
  }

  /** Joining two non-empty lists of pieces is joining each and putting one separator between. */
  lemma {:induction false} JoinSplit(xs: seq<Bytes>, ys: seq<Bytes>, sep: Bytes)
    requires |xs| >= 1 && |ys| >= 1
    ensures Join(xs + ys, sep) == Join(xs, sep) + sep + Join(ys, sep)
    decreases |ys|
  {
    var all := xs + ys;
    if |ys| == 1 {
      assert all[..|all| - 1] == xs;
    } else {
      var init := ys[..|ys| - 1];
      assert all[..|all| - 1] == xs + init;
      JoinSplit(xs, init, sep);
    }
  }

  /** Regrouping three texts written back to back changes nothing. */
  lemma Reassociate(a: Bytes, b: Bytes, c: Bytes)
    ensures a + b + c == a + (b + c)
  {
  }

  /** A join starts with the first piece and one separator, then joins the rest. */
  lemma JoinCons(t: Bytes, ts: seq<Bytes>, sep: Bytes)
    requires |ts| >= 1
    ensures Join([t] + ts, sep) == t + sep + Join(ts, sep)
  {
    JoinSplit([t], ts, sep);
  }

  /** Cuts `s` at every `b`: the inverse of joining with `b` (see `SplitJoin`). */
  function Split(s: Bytes, b: Byte): (ts: seq<Bytes>)
    ensures |ts| >= 1
    decreases |s|
  {
    match FindByte(s, b)
    case None => [s]
    case Some(k) => [s[..k]] + Split(s[k + 1..], b)
  }

  /** Joining pieces free of `b` with `b`, then cutting at every `b`, gives back the
      pieces: no separator is lost, added or moved. */
  lemma {:induction false} SplitJoin(ts: seq<Bytes>, b: Byte)
    requires |ts| >= 1
    requires forall i | 0 <= i < |ts| :: b !in ts[i]
    ensures Split(Join(ts, [b]), b) == ts
    decreases |ts|
  {
    if |ts| > 1 {
      var rest := ts[1..];
      assert ts == [ts[0]] + rest;
      JoinCons(ts[0], rest, [b]);
      var s := Join(ts, [b]);
      assert s == ts[0] + [b] + Join(rest, [b]);
      FindAfter(ts[0], b, Join(rest, [b]));
      assert s[..|ts[0]|] == ts[0];
      assert s[|ts[0]| + 1..] == Join(rest, [b]);
      SplitJoin(rest, b);
    }
  }

  /** The builder loop of a multi-part pattern: write each piece, then the separator
      when another piece follows. */
  method JoinLoop(ts: seq<Bytes>, sep: Bytes) returns (out: Bytes)
    ensures out == Join(ts, sep)
  {
    out := [];
    var i := 0;
    while i < |ts|
      invariant 0 <= i <= |ts|
      invariant out == if i == 0 then [] else Join(ts[..i], sep) + (if i < |ts| then sep else [])
    {
      assert ts[..i + 1][..i] == ts[..i];
      if i == 0 {
        assert ts[..1] == [ts[0]];
      }
      out := out + ts[i];
      if i < |ts| - 1 {
        out := out + sep;
      }
      i := i + 1;
    }
    assert ts[..|ts|] == ts;
  }

  /** Index of the first `b` in `s`, if any. */
  function FindByte(s: Bytes, b: Byte): (k: Option<nat>)
    ensures k.Some? ==> k.value < |s| && s[k.value] == b && b !in s[..k.value]
    ensures k.None? ==> b !in s
  {
    if s == [] then None
    else if s[0] == b then Some(0)
    else match FindByte(s[1..], b)
      case None => None
      case Some(k) =>
        assert s[1..][..k] == s[..k + 1][1..];
        Some(k + 1)
  }

  /** The first `b` after a stretch free of `b` is found right after it. */
  lemma FindAfter(a: Bytes, b: Byte, rest: Bytes)
    requires b !in a
    ensures FindByte(a + [b] + rest, b) == Some(|a|)
  {
    var s := a + [b] + rest;
    assert s[|a|] == b;
    assert s[..|a|] == a;
  }

  /** Cuts `s` at its first `b` into what comes before and what comes after. */
  function Cut(s: Bytes, b: Byte): (r: Option<(Bytes, Bytes)>)
    ensures r.None? ==> b !in s
    ensures r.Some? ==> s == r.value.0 + [b] + r.value.1 && b !in r.value.0
  {
    match FindByte(s, b)
    case None => None
    case Some(k) => Some((s[..k], s[k + 1..]))
  }

  /** Cutting a text at the first `b` after a stretch free of `b`. */
  lemma CutAfter(a: Bytes, b: Byte, rest: Bytes)
    requires b !in a
    ensures Cut(a + [b] + rest, b) == Some((a, rest))
  {
    var s := a + [b] + rest;
    FindAfter(a, b, rest);
    assert s[..|a|] == a;
    assert s[|a| + 1..] == rest;
  }
}

=== FILE: utf8.dfy ===
/** UTF-8 (RFC 3629) as Go's `strings.Builder.WriteRune` writes a rune, and a
    decoder for one encoded rune. */
module Utf8 {
  import opened Text

  /** Go's `rune` is a 32-bit signed integer; not every value is a code point. */
  type Rune = r: int | -0x8000_0000 <= r < 0x8000_0000

  /** U+FFFD, written in place of a value that is not a Unicode scalar value. */
  const RuneError: int := 0xFFFD

  predicate ValidRune(r: int)
  {
    0 <= r <= 0x10FFFF && !(0xD800 <= r <= 0xDFFF)
  }

  /** The code point a rune stands for once written. */
  function Normalize(r: Rune): (c: int)
    ensures ValidRune(c)
    ensures ValidRune(r) ==> c == r
  {
    if ValidRune(r) then r else RuneError
  }

  predicate IsContinuation(b: Byte)
  {
    0x80 <= b < 0xC0
  }

  function Encode3(c: int): Bytes
    requires 0x800 <= c < 0x10000
  {
    [0xE0 + c / 0x1000, 0x80 + (c / 0x40) % 0x40, 0x80 + c % 0x40]
  }

  function Encode4(c: int): Bytes
    requires 0x10000 <= c <= 0x10FFFF
  {
    [0xF0 + c / 0x40000, 0x80 + (c / 0x1000) % 0x40, 0x80 + (c / 0x40) % 0x40, 0x80 + c % 0x40]
  }

  /** One to four bytes; exactly one, equal to the rune, for ASCII. The length is
      the shortest the written code point allows (the table of section 3 of
      RFC 3629), so no encoding is overlong. */
  function EncodeRune(r: Rune): (b: Bytes)
    ensures 1 <= |b| <= 4
    ensures (|b| == 1) == (0 <= r < 0x80)
    ensures 0 <= r < 0x80 ==> b == [r]
    ensures var c := Normalize(r);
            |b| == (if c < 0x80 then 1 else if c < 0x800 then 2 else if c < 0x10000 then 3 else 4)
  {
    if 0 <= r < 0x80 then [r]
    else if 0x80 <= r < 0x800 then [0xC0 + r / 0x40, 0x80 + r % 0x40]
    else if !ValidRune(r) then Encode3(RuneError)
    else if r < 0x10000 then Encode3(r)
    else Encode4(r)
  }

  /** No byte of a longer encoding is an ASCII byte, so `\`, `^`, `-` and `]` only
      ever appear as themselves. */
  lemma EncodeRuneHigh(r: Rune)
    ensures |EncodeRune(r)| > 1 ==> forall i | 0 <= i < |EncodeRune(r)| :: EncodeRune(r)[i] >= 0x80
  {
  }

  /** The first rune of `b` and the number of bytes it takes, when `b` starts with a
      well-formed encoding. */
  function DecodeRune(b: Bytes): (d: Option<(int, nat)>)
    ensures d.Some? ==> 1 <= d.value.1 <= |b|
  {
    if |b| == 0 then None
    else if b[0] < 0x80 then Some((b[0], 1))
    else if 0xC0 <= b[0] < 0xE0 && |b| >= 2 && IsContinuation(b[1]) then
      Some(((b[0] as int - 0xC0) * 0x40 + (b[1] as int - 0x80), 2))
    else if 0xE0 <= b[0] < 0xF0 && |b| >= 3 && IsContinuation(b[1]) && IsContinuation(b[2]) then
      Some(((b[0] as int - 0xE0) * 0x1000 + (b[1] as int - 0x80) * 0x40 + (b[2] as int - 0x80), 3))
    else if 0xF0 <= b[0] < 0xF8 && |b| >= 4 && IsContinuation(b[1]) && IsContinuation(b[2]) && IsContinuation(b[3]) then
      Some(((b[0] as int - 0xF0) * 0x40000 + (b[1] as int - 0x80) * 0x1000 + (b[2] as int - 0x80) * 0x40 + (b[3] as int - 0x80), 4))
    else None
  }

  lemma SixBits(c: nat)
    ensures c == (c / 0x40) * 0x40 + c % 0x40
    ensures c / 0x1000 == (c / 0x40) / 0x40
    ensures c / 0x40000 == (c / 0x1000) / 0x40
  {
    var q := c / 0x40;
    var p := q / 0x40;
    assert c == q * 0x40 + c % 0x40;
    assert q == p * 0x40 + q % 0x40;
    assert c == p * 0x1000 + (q % 0x40) * 0x40 + c % 0x40;
    assert c / 0x1000 == p;
    var o := p / 0x40;
    assert p == o * 0x40 + p % 0x40;
    assert c == o * 0x40000 + (p % 0x40) * 0x1000 + (q % 0x40) * 0x40 + c % 0x40;
    assert c / 0x40000 == o;
  }

  lemma Decode3(c: int, rest: Bytes)
    requires 0x800 <= c < 0x10000
    ensures DecodeRune(Encode3(c) + rest) == Some((c, 3))
  {
    SixBits(c);
    var b := Encode3(c) + rest;
    assert b[0] == 0xE0 + c / 0x1000 && b[1] == 0x80 + (c / 0x40) % 0x40 && b[2] == 0x80 + c % 0x40;
    assert (b[0] as int - 0xE0) * 0x1000 + (b[1] as int - 0x80) * 0x40 + (b[2] as int - 0x80) == c;
  }

  lemma Decode4(c: int, rest: Bytes)
    requires 0x10000 <= c <= 0x10FFFF
    ensures DecodeRune(Encode4(c) + rest) == Some((c, 4))
  {
    SixBits(c);
    SixBits(c / 0x40);
    var b := Encode4(c) + rest;
    assert b[0] == 0xF0 + c / 0x40000 && b[1] == 0x80 + (c / 0x1000) % 0x40;
    assert b[2] == 0x80 + (c / 0x40) % 0x40 && b[3] == 0x80 + c % 0x40;
    assert (b[0] as int - 0xF0) * 0x40000 + (b[1] as int - 0x80) * 0x1000 + (b[2] as int - 0x80) * 0x40 + (b[3] as int - 0x80) == c;
  }

  /** Decoding what `EncodeRune` writes, whatever follows it, gives back the code point
      (U+FFFD for a value that is not one) and the length of its encoding. */
  lemma DecodeEncodeRune(r: Rune, rest: Bytes)
    ensures DecodeRune(EncodeRune(r) + rest) == Some((Normalize(r), |EncodeRune(r)|))
  {
    if 0 <= r < 0x80 {
    } else if 0x80 <= r < 0x800 {
      SixBits(r);
    } else if !ValidRune(r) {
      Decode3(RuneError, rest);
    } else if r < 0x10000 {
      Decode3(r, rest);
    } else {
      Decode4(r, rest);
    }
  }
}
